=== FILE: README.md ===
# Photon's Vulkan core, modelled in Dafny

This project models the Vulkan set-up and frame logic of the Photon game engine.
Photon is written in C++ on Vulkan and GLFW. The model is built from immutable records, sequences and pure functions.
Driver handles are opaque tokens handed out by a counter (`VkTypes.Allocator`).
Each driver answer the code catches is a parameter: a rejected creation call is `Fault` (the index of the first rejected call) or a `rejected` flag.
A `PT_CORE_ASSERT` that fires is the `Fatal` case of `VkTypes.Outcome`.

The modules follow the source files:

- `VkTypes`: handles, the fresh-handle counter, `uint32_t` wrap-around, `Extent2D`, `Outcome`.
- `SwapchainConfig`: `ChooseSurfaceFormat`, `ChoosePresentMode`, `ChooseSwapchainExtent`, and the image-count rule from `VulkanContext.cpp`.
- `QueueFamilies`: queue-family resolution, unique indices, the queue create-infos, the logical-device request, and the swapchain sharing mode.
- `VulkanApi`: `VulkanAPI.cpp`, covering the extension and layer checks, device selection, the idempotent `Init`, and the debug callback.
- `Swapchain`: the swapchain request and the per-image `SwapchainFrame`s.
- `SyncUtils`, `FramebufferUtils`, `CommandUtils`: the three `Vulkan*Utils.cpp` files.
- `FrameLoop`: `SwapBuffers` and `RecordDrawCommands` as traces of driver calls, the single-time command path, and a render loop over many frames.
- `Teardown`: the destructor of `VulkanContext` as a trace of destroy calls.
- `Scene`: `LoadModel`, `CreateTextureImages`, `ObjectToVKGeometry`, `CreateBottomLevelAS` and `CreateTopLevelAS`. These are index and count bookkeeping.
- `WindowsWindow`: the older set-up path in `WindowsWindow.cpp`, plus the GLFW callbacks and vsync.

Each trace op has a protocol rank (`FrameLoop.Phase`). The ordering properties are stated on those ranks.

The trace is paired with an independent interpreter, `FrameLoop.Apply` / `FrameLoop.Run`. It encodes the usage rules of the "Synchronization and Cache Control" chapter of the Vulkan 1.3 specification for the objects the context uses:
- a fence is not reset while a signal is pending;
- a fence wait only returns once the fence is or will be signalled;
- a semaphore is waited on only once it is signalled or a signal is pending;
- a command buffer is not reset or freed while it may be executing.

The model follows the code where it departs from the obvious reading:
- Queue resolution overwrites each index until both roles are set. Each role ends on the last qualifying family at or before the stopping index, not the lowest one.
- The debug callback never aborts; it always returns `VK_FALSE`.
- The debug messenger is created in every build type, not only debug builds.
- No step ever rebuilds the swapchain. The acquire and present results are never inspected.
- The destructor does not destroy in reverse creation order.
- A rejected submission is only logged. `FrameLoop.SubmitFailureBreaksPresent` and `FrameLoop.SubmitFailureStallsNextFrame` show what follows: the present waits on a semaphore nothing will signal, and the next frame's fence wait never returns.
- `PT_CORE_ASSERT` is treated as ending the process.

## Model

| member | source | states |
|---|---|---|
| SwapchainConfig.ChooseSurfaceFormat | Photon/src/Platform/Vulkan/VulkanContext.cpp:40-52 | the result is one of the offered formats; it is B8G8R8A8Unorm/SrgbNonlinear when offered, else the first entry |
| SwapchainConfig.ScanForPreferred | Photon/src/Platform/Vulkan/VulkanContext.cpp:42-49 | the scan finds a match iff the preferred format is in the list |
| SwapchainConfig.ChoosePresentMode | Photon/src/Platform/Vulkan/VulkanContext.cpp:54-63 | Mailbox iff Mailbox is offered, otherwise FIFO, whether or not FIFO is listed |
| SwapchainConfig.ChooseSwapchainExtent | Photon/src/Platform/Vulkan/VulkanContext.cpp:65-74 | the surface's current extent when it is fixed; otherwise each side is the window size when in range, the maximum when above it, and when below it the minimum, or the maximum when the bounds cross (std::min(max, std::max(min, size))) |
| SwapchainConfig.WindowSizeArgument | Photon/src/Platform/Vulkan/VulkanContext.cpp:217-218 | the int window size becomes a uint32_t argument: unchanged when representable, plus 2^32 when negative |
| SwapchainConfig.ImageCount | Photon/src/Platform/Vulkan/VulkanContext.cpp:339-342 | exactly min + 1 when there is no maximum or it is at least min + 1, otherwise the maximum; never above a nonzero maximum; 0 when min + 1 wraps |
| SwapchainConfig.SelectionIgnoresListOrder | Photon/src/Platform/Vulkan/VulkanContext.cpp:40-63 | with the preferred format offered, format and mode choice do not depend on the order of the lists |
| QueueFamilies.ScanFamilies | Photon/src/Platform/Vulkan/VulkanContext.cpp:230-247 | the loop sets both roles iff some index has both roles covered at or before it; the recorded pair is the unique ResolvedAt solution |
| QueueFamilies.ResolveQueueFamilies | Photon/src/Platform/Vulkan/VulkanContext.cpp:226-249 | fatal iff there is no graphics family or no presenting family; otherwise complete and equal to the last qualifying families before the first stopping index |
| QueueFamilies.ResolvedAtIsUnique | Photon/src/Platform/Vulkan/VulkanContext.cpp:230-247 | the resolution is determined by the families: two solutions are equal |
| QueueFamilies.ResolutionIsNotLowestIndex | Photon/src/Platform/Vulkan/VulkanContext.cpp:230-247 | a graphics-only family 0 followed by a universal family 1 resolves both roles to 1, not to the lowest graphics index |
| QueueFamilies.UniqueIndices | Photon/src/Platform/Vulkan/VulkanContext.cpp:253-256 | one entry iff the roles share a family, two otherwise; graphics first, entries distinct, exactly the two role families |
| QueueFamilies.QueueCreateFamiliesAsWritten | Photon/src/Platform/Vulkan/VulkanContext.cpp:260-267 | as written, one create-info per unique index, each naming the graphics family |
| QueueFamilies.AsWrittenSkipsPresentFamily | Photon/src/Platform/Vulkan/VulkanContext.cpp:260-267 | with distinct roles, the graphics family is named twice and the present family never |
| QueueFamilies.QueueCreateFamilies | Photon/src/Platform/Vulkan/VulkanContext.cpp:253-267 | corrected: distinct families, both roles present, nothing else |
| QueueFamilies.ChooseSharing | Photon/src/Platform/Vulkan/VulkanContext.cpp:356-366 | Concurrent over [graphics, present] iff the roles differ, Exclusive with no index list otherwise |
| QueueFamilies.SharingMatchesUniqueIndices | Photon/src/Platform/Vulkan/VulkanContext.cpp:253-256 | concurrent sharing lists exactly the unique indices; exclusive sharing happens when those are the graphics family alone |
| QueueFamilies.ContextDeviceCreateInfoAsWritten | Photon/src/Platform/Vulkan/VulkanContext.cpp:253-308 | as written, one queue entry per unique family, each naming the graphics family; the API's layers, VK_KHR_swapchain among the extensions, anisotropy, device addresses, acceleration structures and ray-tracing pipelines enabled |
| QueueFamilies.AsWrittenPresentQueueWasNotCreated | Photon/src/Platform/Vulkan/VulkanContext.cpp:260-323 | as written, with distinct roles the present queue is fetched from a family the device request never names |
| QueueFamilies.ContextDeviceCreateInfo | Photon/src/Platform/Vulkan/VulkanContext.cpp:253-308 | corrected: queues for both roles, the API's layers, VK_KHR_swapchain among the extensions, anisotropy, device addresses, acceleration structures and ray-tracing pipelines enabled |
| QueueFamilies.ContextQueues | Photon/src/Platform/Vulkan/VulkanContext.cpp:321-323 | queue 0 of the graphics family and queue 0 of the present family |
| QueueFamilies.FetchedQueuesWereCreated | Photon/src/Platform/Vulkan/VulkanContext.cpp:260-323 | with the corrected create-infos, both fetched queues belong to families given a queue at device creation |
| QueueFamilies.AsymmetricQueuesShareConcurrently | Photon/src/Platform/Vulkan/VulkanContext.cpp:230-366 | graphics only on family 0 and present only on family 2 resolve to (0, 2) with concurrent sharing over [0, 2] |
| VulkanApi.Found | Photon/src/Platform/Vulkan/VulkanAPI.cpp:39-47 | the strcmp scan finds a name iff it is in the list |
| VulkanApi.AllFound | Photon/src/Platform/Vulkan/VulkanAPI.cpp:36-51 | true iff every requested name is in the supported list |
| VulkanApi.Supported | Photon/src/Platform/Vulkan/VulkanAPI.cpp:23-81 | true iff every requested extension and every requested layer is supported; empty requests are supported |
| WindowsWindow.LegacySupported | Photon/src/Platform/Windows/WindowsWindow.cpp:156-214 | true iff every requested extension and every requested layer is in the supported lists |
| VulkanApi.AllInSet | Photon/src/Platform/Vulkan/VulkanAPI.cpp:90-94 | true iff every requested name is in the set |
| VulkanApi.CheckDeviceExtensionSupport | Photon/src/Platform/Vulkan/VulkanAPI.cpp:83-97 | true iff the requested names are a subset of the device's extension names |
| VulkanApi.DeviceCheckDependsOnlyOnNames | Photon/src/Platform/Vulkan/VulkanAPI.cpp:83-97 | duplicated or reordered device entries do not change the answer |
| VulkanApi.FirstSuitable | Photon/src/Platform/Vulkan/VulkanAPI.cpp:171-186 | the index of the first suitable device; None iff no device is suitable |
| VulkanApi.LayersAfterInit | Photon/src/Platform/Vulkan/VulkanAPI.cpp:133-135 | the validation layer is in the stored layers iff it was already there or the build is a debug build |
| VulkanApi.Init | Photon/src/Platform/Vulkan/VulkanAPI.cpp:104-190 | a repeated call changes nothing; a first call succeeds iff the request is supported and the instance is created; it then stores the request and VK_KHR_swapchain, and the first suitable device or the null handle |
| VulkanApi.InitIsIdempotent | Photon/src/Platform/Vulkan/VulkanAPI.cpp:106-107 | after a successful Init, any later Init returns the same state, whatever the environment answers |
| VulkanApi.FirstInitSelectsFirstSwapchainDevice | Photon/src/Platform/Vulkan/VulkanAPI.cpp:129-186 | from the initial state, the device request is exactly VK_KHR_swapchain; the kept device is the first holding it, or the null handle with no assertion |
| VulkanApi.DebugCallback | Photon/src/Platform/Vulkan/VulkanAPI.cpp:201-226 | error, warning and info severities log at their own level, anything else at trace; the result is always VK_FALSE |
| VulkanApi.MessengerLogsWarningsAndErrors | Photon/src/Platform/Vulkan/VulkanAPI.cpp:157-168 | every severity the messenger is registered for logs as a warning or an error and never aborts |
| Swapchain.PlanSwapchain | Photon/src/Platform/Vulkan/VulkanContext.cpp:325-373 | the request combines the selection rules: an offered format, Mailbox iff offered, image count min + 1 capped by a nonzero maximum, fixed extent kept, otherwise a representable window size clamped per side, concurrent over the unique indices iff the roles differ and exclusive with no list otherwise, one colour layer, opaque, clipped, no old swapchain |
| Swapchain.ColdStartScenario | Photon/src/Platform/Vulkan/VulkanContext.cpp:226-373 | one universal family and a BGRA8/FIFO-only surface give two images, BGRA8/sRGB, FIFO and exclusive sharing |
| Swapchain.CreateFrames | Photon/src/Platform/Vulkan/VulkanContext.cpp:384-408 | one frame per image, in image order, each with a fresh, distinct 2-D identity-swizzle view of the chosen format with one mip and one layer; fatal iff a view creation is rejected |
| SyncUtils.MakeSemaphore | Photon/src/Platform/Vulkan/VulkanSyncUtils.cpp:6-19 | a fresh, unsignalled semaphore; a rejected creation is fatal |
| SyncUtils.MakeFence | Photon/src/Platform/Vulkan/VulkanSyncUtils.cpp:21-34 | a fresh fence created signalled; a rejected creation is fatal |
| SyncUtils.MakeSyncObjects | Photon/src/Platform/Vulkan/VulkanContext.cpp:562-564 | one signalled fence and two unsignalled semaphores, pairwise distinct and fresh; fatal iff one of the three calls is rejected |
| FramebufferUtils.MakeFrameBuffers | Photon/src/Platform/Vulkan/VulkanFramebufferUtils.cpp:6-31 | every frame gets a fresh, distinct framebuffer; its only attachment is the frame's own view, at the extent's size, one layer, on the given render pass; only FrameBuffer changes; fatal iff a creation is rejected |
| CommandUtils.MakeCommandPool | Photon/src/Platform/Vulkan/VulkanCommandUtils.cpp:7-21 | a fresh pool with the reset flag on the graphics family; fatal without a graphics family or when rejected |
| CommandUtils.MakeCommandBuffer | Photon/src/Platform/Vulkan/VulkanCommandUtils.cpp:23-50 | one fresh primary buffer per frame written only to its CommandBuffer field, plus a main buffer; frames + 1 distinct allocations from the pool; fatal iff an allocation is rejected |
| FrameLoop.RecordDrawCommands | Photon/src/Platform/Vulkan/VulkanContext.cpp:612-658 | begin, render pass, bind, draw(3,1,0,0), callback, end pass, end, at consecutive phases on the frame's objects; completes iff neither begin nor end is rejected; the current buffer is cleared on completion and left set on abort; the callback sees the frame's buffer strictly inside the render pass |
| FrameLoop.SwapBuffers | Photon/src/Platform/Vulkan/VulkanContext.cpp:567-610 | fence wait, fence reset, acquire, buffer reset, recording, submit (waiting on image-available at colour output, signalling render-finished and the fence), a log line only when the submission is rejected, present (waiting on render-finished); a rejected submission is not fatal |
| FrameLoop.SwapBuffersFollowsProtocol | Photon/src/Platform/Vulkan/VulkanContext.cpp:567-610 | every step at most once and in order; a completed frame has every step up to the present; the log step appears iff the submission was rejected; an aborted frame neither submits nor presents |
| FrameLoop.ColdStartIsSteady | Photon/src/Platform/Vulkan/VulkanSyncUtils.cpp:6-34 | the freshly created objects start in the steady state, so the first fence wait returns at once |
| FrameLoop.SwapBuffersKeepsSyncValid | Photon/src/Platform/Vulkan/VulkanContext.cpp:567-610 | an accepted frame run from a steady state breaks no synchronisation rule and ends steady |
| FrameLoop.SubmitFailureBreaksPresent | Photon/src/Platform/Vulkan/VulkanContext.cpp:592-609 | after a rejected submission the present waits on a semaphore nothing will signal: the frame breaks a rule |
| FrameLoop.SubmitFailureStallsNextFrame | Photon/src/Platform/Vulkan/VulkanContext.cpp:569-599 | after a rejected submission the fence stays reset with no pending signal, so the next fence wait never returns |
| FrameLoop.OneWaitPerFrame | Photon/src/Platform/Vulkan/VulkanContext.cpp:569 | each SwapBuffers call waits on the fence exactly once |
| FrameLoop.RunFrames | Photon/src/Platform/Vulkan/VulkanContext.cpp:567-610 | the loop keeps the frames and the synchronisation handles; it completes iff no frame hits an assertion, with one fence wait per frame |
| FrameLoop.AcceptedFramesStayValid | Photon/src/Platform/Vulkan/VulkanContext.cpp:567-610 | any number of accepted frames from a steady state break no rule and end steady |
| FrameLoop.CreateSingleTimeCommandBuffer | Photon/src/Platform/Vulkan/VulkanContext.cpp:683-698 | one fresh buffer allocated from the context's pool and begun for one-time submission; exceptions are not modelled (see Left out) |
| FrameLoop.EndSingleTimeCommands | Photon/src/Platform/Vulkan/VulkanContext.cpp:870-884 | end, submit without a fence, wait for the queue to go idle, free the buffer to the pool, in that order; exceptions are not modelled (see Left out) |
| FrameLoop.SingleTimeCommandsRetireBeforeFree | Photon/src/Platform/Vulkan/VulkanContext.cpp:683-884 | the one-shot path breaks no rule; afterwards nothing is executing and the semaphores are untouched |
| FrameLoop.FreeNeedsIdleWait | Photon/src/Platform/Vulkan/VulkanContext.cpp:878-883 | without the idle wait, the free hits a buffer that may still be executing |
| Teardown.FrameTeardown | Photon/src/Platform/Vulkan/VulkanContext.cpp:199-202 | for each frame in order, its view and then its framebuffer |
| Teardown.DestroyAsWritten | Photon/src/Platform/Vulkan/VulkanContext.cpp:181-211 | the idle wait comes first and only once; the device is destroyed before the ray-tracing builder |
| Teardown.RtBuilderOutlivesDevice | Photon/src/Platform/Vulkan/VulkanContext.cpp:204-207 | as written, a call that needs the device comes after the device is destroyed |
| Teardown.Destroy | Photon/src/Platform/Vulkan/VulkanContext.cpp:181-211 | corrected: the idle wait comes first and only once; the device is destroyed second to last, before the API shutdown |
| Teardown.DestroyKeepsDeviceAlive | Photon/src/Platform/Vulkan/VulkanContext.cpp:181-211 | in the corrected order, every call that needs the device runs between the idle wait and the device's single destruction |
| Teardown.DestroyCoversContext | Photon/src/Platform/Vulkan/VulkanContext.cpp:183-205 | the fence, both semaphores, the pool, both pipelines and render passes, each view before its framebuffer, the swapchain and the device are destroyed, at fixed positions |
| Teardown.DestroyOnlyReorders | Photon/src/Platform/Vulkan/VulkanContext.cpp:181-211 | the corrected and as-written traces destroy the same objects |
| Scene.CreateTextureImagesAsWritten | Photon/src/Platform/Vulkan/VulkanContext.cpp:776-809 | as written, it succeeds iff no textures are requested and none exist yet, creating one fresh placeholder |
| Scene.SecondUntexturedModelIsFatal | Photon/src/Platform/Vulkan/VulkanContext.cpp:787-808 | as written, a first untextured model loads and a second one hits the assertion |
| Scene.CreateTextureImages | Photon/src/Platform/Vulkan/VulkanContext.cpp:776-809 | corrected: succeeds iff no textures are requested; keeps existing textures, or creates a fresh placeholder when there are none |
| Scene.LoadModelAsWritten | Photon/src/Platform/Vulkan/VulkanContext.cpp:811-868 | with the as-written texture step, loading succeeds iff the file is untextured and no texture exists; a successful load appends exactly what LoadModel appends (four fresh buffers, wrapped counts, objIndex, txtOffset, descriptor) |
| Scene.LoadModel | Photon/src/Platform/Vulkan/VulkanContext.cpp:811-868 | corrected (uses the corrected CreateTextureImages): succeeds iff the file is untextured; appends one model with the loader's counts and four fresh buffers, one instance pointing at it, and one descriptor naming its buffers and the texture offset |
| Scene.LoadModelPreservesConsistency | Photon/src/Platform/Vulkan/VulkanContext.cpp:851-867 | model i keeps instance i and descriptor i after a load |
| Scene.LoadModelsBuildsConsistentScene | Photon/src/Platform/Vulkan/VulkanContext.cpp:811-868 | loading any number of untextured files succeeds and keeps the correspondence, adding one model per file |
| Scene.ObjectToGeometry | Photon/src/Platform/Vulkan/VulkanContext.cpp:700-738 | one opaque triangle geometry over the model's buffers; primitiveCount is nbIndices / 3 rounded down; maxVertex is nbVertices - 1 with uint32_t wrap-around; zero offsets |
| Scene.CreateBottomLevelAS | Photon/src/Platform/Vulkan/VulkanContext.cpp:740-753 | one input per model, in model order |
| Scene.CreateTopLevelAS | Photon/src/Platform/Vulkan/VulkanContext.cpp:755-771 | one entry per instance, in order, referencing its model's structure, with the 24-bit custom index, mask 0xFF, hit-group offset 0 and culling disabled |
| Scene.BuildSceneAS | Photon/src/Platform/Vulkan/VulkanContext.cpp:553-554 | for a consistent scene, TLAS entry i references model i's structure; with at most 2^24 models its custom index is i, and descriptor i describes model i |
| WindowsWindow.LegacyIsSuitable | Photon/src/Platform/Windows/WindowsWindow.cpp:243-266 | the window's subset test against the fixed request: a device is suitable iff its extension set holds VK_KHR_swapchain |
| WindowsWindow.FirstGraphicsFamily | Photon/src/Platform/Windows/WindowsWindow.cpp:353-368 | the loop stops at the first graphics family; None iff there is none |
| WindowsWindow.LegacyQueueSelection | Photon/src/Platform/Windows/WindowsWindow.cpp:349-370 | both roles go to the first graphics family; the assertion fires iff there is no graphics family |
| WindowsWindow.LegacyQueueIgnoresPresentSupport | Photon/src/Platform/Windows/WindowsWindow.cpp:353-370 | a lone graphics family that cannot present is accepted here, where the context's resolution fails |
| WindowsWindow.LegacyAgreesWhenFirstFamilyDoesBoth | Photon/src/Platform/Windows/WindowsWindow.cpp:353-370 | when family 0 draws and presents, the window and the context both resolve to (0, 0) |
| WindowsWindow.LegacyDeviceCreateInfo | Photon/src/Platform/Windows/WindowsWindow.cpp:372-388 | exactly one queue, on the graphics family; the instance layers; zero device extensions, so no VK_KHR_swapchain; anisotropy only |
| WindowsWindow.LegacyCreateDevice | Photon/src/Platform/Windows/WindowsWindow.cpp:349-401 | succeeds iff the device has a graphics family and creation is accepted; the graphics queue comes from a family given a queue |
| WindowsWindow.InitVulkan | Photon/src/Platform/Windows/WindowsWindow.cpp:268-401 | an unsupported request is fatal; success means the request was supported, both creations were accepted, and the device kept is the first holding VK_KHR_swapchain, with first-graphics queues, one queue and no device extension; the call succeeds iff the request is supported, both creations are accepted and the first swapchain device has a graphics family |
| WindowsWindow.ResizeCallback | Photon/src/Platform/Windows/WindowsWindow.cpp:65-74 | stores the new size, converted to uint32_t, then dispatches one resize event with the received values; title and vsync are unchanged |
| WindowsWindow.ResizeEventMatchesStoredSize | Photon/src/Platform/Windows/WindowsWindow.cpp:65-74 | for a representable size, the stored width and height equal the event's |
| WindowsWindow.CloseCallback | Photon/src/Platform/Windows/WindowsWindow.cpp:76-82 | one close event; the data is unchanged |
| WindowsWindow.KeyCallback | Photon/src/Platform/Windows/WindowsWindow.cpp:84-109 | press gives KeyPressed(key, 0), repeat KeyPressed(key, 1), release KeyReleased(key), any other action nothing |
| WindowsWindow.KeyEventsDecode | Photon/src/Platform/Windows/WindowsWindow.cpp:84-109 | the emitted event gives back the key and the action; an event is emitted iff the action is press, release or repeat |
| WindowsWindow.MouseCallback | Photon/src/Platform/Windows/WindowsWindow.cpp:111-130 | press and release dispatch the matching button event; repeat and other actions dispatch nothing |
| WindowsWindow.SetVSync | Photon/src/Platform/Windows/WindowsWindow.cpp:409-417 | swap interval 1 iff enabled, 0 iff disabled; the flag is recorded and the rest of the data is unchanged |
| WindowsWindow.VSyncRoundTrip | Photon/src/Platform/Windows/WindowsWindow.cpp:409-422 | IsVSync returns the last value set, the swap interval agrees with it, and a later SetVSync overrides an earlier one |

## Left out

- GLFW, ImGui and nvvk calls are not modelled. Each driver call is an abstract op or a fresh handle. The outcome of a call the code catches is a parameter. Every other call whose exception escapes uncaught is modelled as succeeding, in every modelled function. There are two exceptions, each modelled as ending the process. In `Swapchain.CreateFrames`, an uncaught `createImageView` rejection (VulkanContext.cpp:407) ends it. In `CommandUtils.MakeCommandPool`, the `std::bad_optional_access` thrown by `graphicsFamily.value()` outside the try block (VulkanCommandUtils.cpp:11) ends it. The calls let succeed include `enumerateInstanceExtensionProperties` and `enumerateInstanceLayerProperties` (VulkanAPI.cpp:26, 54). They also include `createDebugUtilsMessengerEXT` and `enumeratePhysicalDevices` (VulkanAPI.cpp:168, 173; WindowsWindow.cpp:331, 334), and `getSurfaceCapabilitiesKHR` and `getSwapchainImagesKHR` (VulkanContext.cpp:326, 384). The lines below name those in the frame loop.
- The fixed pipeline, render-pass and shader-stage create-infos (VulkanContext.cpp:118-173, 439-539) and `CreateDescriptorPool` (660-681) are left out. They are constant configuration.
- `ReadFile`, `CreateShaderModule` and the hard-coded model and shader paths are left out. They are file I/O.
- The sRGB-to-linear `pow` on materials is left out because it is floating point. Instance transforms are opaque tokens, with no matrix arithmetic.
- Buffer device addresses are identified with the buffer handles.
- `RaytracingBuilderKHR` internals are left out: `buildBlas`, `buildTlas`, `getBlasDeviceAddress`, and the allocator and staging. The BLAS addresses are a parameter of `Scene.CreateTopLevelAS`.
- The clear colour of the render pass is left out because it is floating point. `VertexObj`'s stride is left out; that struct is not part of this model.
- Swapchain rebuild and resize handling are not modelled, because the code has neither. Resizing is disabled at WindowsWindow.cpp:48.
- The error paths of `acquireNextImageKHR` and `presentKHR` are not modelled. Their results are never inspected, and the exceptions they may throw are uncaught.
- Objects that are never destroyed are not in the teardown trace: the allocator, surface, shader modules, layouts, instance and messenger.
- `WindowsWindow`'s scroll and cursor callbacks and `OnUpdate` are left out. They forward floating-point values to events without logic.
- `WindowsWindow`'s instance version query and `glfwInit` handling are left out; they are I/O.
- WindowsInput.cpp, the Events headers, ImGuiLayer.cpp, Application, Log, EntryPoint and the Tutorial copies of the utilities are left out. They are scaffolding, or copies covered by the same model.
- The scripts are left out; they are Python build tooling.
- WindowsWindow.InitVulkan: with no suitable device, the source calls `getQueueFamilyProperties` on a null handle. That is undefined behaviour, not an assertion. The model treats it as ending the process.
- FrameLoop.SwapBuffers: `commandBuffer.reset()` (VulkanContext.cpp:576) may throw, and nothing catches the exception. The results of `waitForFences` and `resetFences` (569-570) are ignored. The model lets all three succeed. Only the caught begin, end and submit failures are parameters.
- FrameLoop.CreateSingleTimeCommandBuffer: `allocateCommandBuffers` and `begin` (VulkanContext.cpp:690, 695) may throw uncaught. The model always lets them succeed.
- FrameLoop.EndSingleTimeCommands: the result of `vkEndCommandBuffer` (871) is ignored, and `submit` and `waitIdle` (878-879) may throw uncaught. The model lets all three succeed. An escaping exception would skip the free of the buffer.
- FrameLoop.RunFrames: the driver's choice of image index is a parameter per frame. The model does not constrain how the driver picks it.
- Scene.LoadModelPreservesConsistency: needs fewer than 2^32 - 1 models, because the source stores the model count in a `uint32_t`.

## Findings

| source | as written | input that shows it | evidently intended | confidence | as-written member | corrected member |
|---|---|---|---|---|---|---|
| Photon/src/Platform/Vulkan/VulkanContext.cpp:261-267 | each queue create-info names `graphicsFamily`, not the loop variable | graphics family 0, present family 2: the request names family 0 twice and family 2 never, yet queue 0 of family 2 is fetched at line 323 | one create-info per unique family | high, not executed | QueueFamilies.QueueCreateFamiliesAsWritten, QueueFamilies.AsWrittenSkipsPresentFamily, QueueFamilies.ContextDeviceCreateInfoAsWritten, QueueFamilies.AsWrittenPresentQueueWasNotCreated | QueueFamilies.QueueCreateFamilies, QueueFamilies.ContextDeviceCreateInfo, QueueFamilies.FetchedQueuesWereCreated |
| Photon/src/Platform/Vulkan/VulkanContext.cpp:787-808 | the placeholder is created only when no texture exists; every other call, including an untextured one, asserts "Textured models are not supported" | two untextured models loaded in a row: the second one is fatal | reuse the existing placeholder, and assert only when textures are requested | high, not executed | Scene.CreateTextureImagesAsWritten, Scene.SecondUntexturedModelIsFatal | Scene.CreateTextureImages, Scene.LoadModel, Scene.LoadModelsBuildsConsistentScene |
| Photon/src/Platform/Vulkan/VulkanContext.cpp:204-207 | `m_RTBuilder.destroy()` runs after `m_Device.destroy()` | any context: the builder frees its acceleration structures through a device that no longer exists | destroy the builder before the device | medium, not executed | Teardown.DestroyAsWritten, Teardown.RtBuilderOutlivesDevice | Teardown.Destroy, Teardown.DestroyKeepsDeviceAlive |

=== FILE: command_utils.dfy ===
/** The command pool and the per-frame command buffers
    (Photon/src/Platform/Vulkan/VulkanCommandUtils.cpp). */
module CommandUtils {
  import opened VkTypes
  import opened Swapchain
  import opened QueueFamilies

  /** A command pool as created: its handle, whether its buffers may be reset
      individually (the ResetCommandBuffer flag), and its queue family. */
  datatype CommandPool = CommandPool(handle: Handle, resetCommandBuffer: bool, queueFamily: nat)

  /** MakeCommandPool: a resettable pool on the graphics family. Reading an
      empty graphicsFamily throws std::bad_optional_access, which nothing
      catches; a rejected creation is a fatal assertion. */
  function MakeCommandPool(indices: QueueFamilyIndices, alloc: Allocator, rejected: bool): (r: Outcome<(CommandPool, Allocator)>)
    ensures r.Ok? <==> indices.graphicsFamily.Some? && !rejected
    ensures r.Ok? ==>
      && r.value.0.resetCommandBuffer
      && r.value.0.queueFamily == indices.graphicsFamily.value
      && !alloc.Issued(r.value.0.handle) && r.value.1.Issued(r.value.0.handle)
  {
    if indices.graphicsFamily.None? then Fatal("bad optional access")
    else if rejected then Fatal("Could not create command pool")
    else
      var (h, a) := alloc.Fresh();
      Ok((CommandPool(h, true, indices.graphicsFamily.value), a))
  }

  datatype CommandBufferLevel = Primary | Secondary

  /** One allocateCommandBuffers call with commandBufferCount 1, and the buffer it returned. */
  datatype Allocation = Allocation(pool: Handle, level: CommandBufferLevel, buffer: Handle)

  datatype CommandBufferSet = CommandBufferSet(
    frames: seq<SwapchainFrame>, main: Handle, allocations: seq<Allocation>, alloc: Allocator)

  /** MakeCommandBuffer: one primary buffer per frame, written into that
      frame's CommandBuffer field only, then one more "main" buffer, which is
      returned -- |frames| + 1 allocations from the same pool. Allocation call
      k < |frames| is frame k's; call |frames| is the main buffer's. Any
      rejected allocation is a fatal assertion. */
  method MakeCommandBuffer(pool: CommandPool, frames: seq<SwapchainFrame>, alloc: Allocator, fault: Fault)
    returns (r: Outcome<CommandBufferSet>)
    ensures r.Fatal? <==> fault.Some? && fault.value <= |frames|
    ensures r.Ok? ==>
      var cs := r.value;
      && |cs.frames| == |frames|
      && |cs.allocations| == |frames| + 1
      && alloc.next <= cs.alloc.next
      && (forall i :: 0 <= i < |frames| ==>
            && cs.frames[i] == frames[i].(commandBuffer := cs.frames[i].commandBuffer)
            && cs.allocations[i] == Allocation(pool.handle, Primary, cs.frames[i].commandBuffer)
            && !alloc.Issued(cs.frames[i].commandBuffer) && cs.alloc.Issued(cs.frames[i].commandBuffer))
      && cs.allocations[|frames|] == Allocation(pool.handle, Primary, cs.main)
      && !alloc.Issued(cs.main) && cs.alloc.Issued(cs.main)
      && (forall i, j :: 0 <= i < j < |cs.allocations| ==> cs.allocations[i].buffer != cs.allocations[j].buffer)
  {
    var out: seq<SwapchainFrame> := [];
    var allocations: seq<Allocation> := [];
    var a := alloc;
    var i := 0;
    while i < |frames|
      invariant 0 <= i <= |frames|
      invariant |out| == i && |allocations| == i
      invariant a.next == alloc.next + i
      invariant fault.None? || i <= fault.value
      invariant forall k :: 0 <= k < i ==> out[k] == frames[k].(commandBuffer := Token(alloc.next + k))
      invariant forall k :: 0 <= k < i ==> allocations[k] == Allocation(pool.handle, Primary, Token(alloc.next + k))
    {
      if FailsAt(fault, i) {
        return Fatal("Could not allocate command buffer");
      }
      var (cb, a') := a.Fresh();
      out := out + [frames[i].(commandBuffer := cb)];
      allocations := allocations + [Allocation(pool.handle, Primary, cb)];
      a := a';
      i := i + 1;
    }
    if FailsAt(fault, |frames|) {
      return Fatal("Could not allocate main command buffer");
    }
    var (main, a') := a.Fresh();
    allocations := allocations + [Allocation(pool.handle, Primary, main)];
    return Ok(CommandBufferSet(out, main, allocations, a'));
  }
}

=== FILE: frame_loop.dfy ===
/** The per-frame protocol of VulkanContext::SwapBuffers and
    RecordDrawCommands, and the one-shot command-buffer path, as traces of
    abstract driver calls; plus the synchronisation rules those calls must
    obey, as an interpreter over traces
    (Photon/src/Platform/Vulkan/VulkanContext.cpp). */
module FrameLoop {
  import opened VkTypes
  import opened Swapchain
  import SyncUtils

  /** The members of VulkanContext the frame loop and teardown use. */
  datatype RenderContext = RenderContext(
    device: Handle,
    swapchain: Handle,
    frames: seq<SwapchainFrame>,
    extent: Extent2D,
    renderPass: Handle,          // m_RasterRenderPass
    pipeline: Handle,            // m_RasterPipeline
    rtRenderPass: Handle,
    rtPipeline: Handle,
    commandPool: Handle,
    mainCommandBuffer: Handle,
    inFlightFence: Handle,
    imageAvailable: Handle,
    renderFinished: Handle,
    currentCommandBuffer: Option<Handle>)   // m_CurrentCommandBuffer; None is nullptr

  datatype PipelineStage = ColorAttachmentOutput | OtherStage

  /** One driver call (or callback) the context makes. Calls that a fatal
      assertion interrupts do not appear; a queue submission appears with
      whether the driver accepted it, because its failure is only logged. */
  datatype Op =
    | WaitForFence(fence: Handle)
    | ResetFence(fence: Handle)
    | AcquireNextImage(swapchain: Handle, signal: Handle, imageIndex: nat)
    | ResetCommandBuffer(cb: Handle)
    | BeginCommandBuffer(cb: Handle, oneTimeSubmit: bool)
    | BeginRenderPass(cb: Handle, renderPass: Handle, framebuffer: Handle, area: Extent2D)
    | BindPipeline(cb: Handle, pipeline: Handle)
    | Draw(cb: Handle, vertexCount: nat, instanceCount: nat, firstVertex: nat, firstInstance: nat)
    | RenderCallback(exposed: Option<Handle>)
    | EndRenderPass(cb: Handle)
    | EndCommandBuffer(cb: Handle)
    | Submit(cb: Handle, wait: Handle, waitStage: PipelineStage, signal: Handle, fence: Handle, accepted: bool)
    | LogSubmitFailure
    | Present(wait: Handle, swapchain: Handle, imageIndex: nat)
    | AllocateCommandBuffer(pool: Handle, cb: Handle)
    | SubmitOneShot(cb: Handle)
    | QueueWaitIdle
    | FreeCommandBuffer(pool: Handle, cb: Handle)

  /** The position of each call in the frame protocol. */
  function Phase(op: Op): nat {
    match op
    case WaitForFence(_) => 0
    case ResetFence(_) => 1
    case AcquireNextImage(_, _, _) => 2
    case ResetCommandBuffer(_) => 3
    case BeginCommandBuffer(_, _) => 4
    case BeginRenderPass(_, _, _, _) => 5
    case BindPipeline(_, _) => 6
    case Draw(_, _, _, _, _) => 7
    case RenderCallback(_) => 8
    case EndRenderPass(_) => 9
    case EndCommandBuffer(_) => 10
    case Submit(_, _, _, _, _, _) => 11
    case LogSubmitFailure => 12
    case Present(_, _, _) => 13
    case AllocateCommandBuffer(_, _) => 14
    case SubmitOneShot(_) => 15
    case QueueWaitIdle => 16
    case FreeCommandBuffer(_, _) => 17
  }

  /** Every call comes strictly later in the protocol than every earlier call:
      each step happens at most once, and in protocol order. */
  predicate InPhaseOrder(t: seq<Op>) {
    forall i, j :: 0 <= i < j < |t| ==> Phase(t[i]) < Phase(t[j])
  }

  predicate HasPhase(t: seq<Op>, k: nat) {
    exists i :: 0 <= i < |t| && Phase(t[i]) == k
  }

  /** The calls sit at phases lo, lo + 1, lo + 2, ...: one call per step,
      no step skipped, in protocol order. */
  predicate Consecutive(t: seq<Op>, lo: nat) {
    forall i :: 0 <= i < |t| ==> Phase(t[i]) == lo + i
  }

  lemma ConsecutiveAppend(a: seq<Op>, b: seq<Op>, lo: nat)
    requires Consecutive(a, lo) && Consecutive(b, lo + |a|)
    ensures Consecutive(a + b, lo)
  {
  }

  lemma ConsecutiveIsOrdered(t: seq<Op>, lo: nat)
    requires Consecutive(t, lo)
    ensures InPhaseOrder(t)
    ensures forall k: nat :: HasPhase(t, k) <==> lo <= k < lo + |t|
  {
    forall k | lo <= k < lo + |t| ensures HasPhase(t, k) {
      assert Phase(t[k - lo]) == k;
    }
  }

  /** Consecutive steps from 0, closed by one later step. */
  lemma ClosedBy(body: seq<Op>, op: Op)
    requires Consecutive(body, 0) && |body| <= Phase(op)
    ensures InPhaseOrder(body + [op])
    ensures forall k: nat :: HasPhase(body + [op], k) <==> k < |body| || k == Phase(op)
  {
    var t := body + [op];
    forall k: nat ensures HasPhase(t, k) <==> k < |body| || k == Phase(op) {
      if k < |body| {
        assert Phase(t[k]) == k;
      } else if k == Phase(op) {
        assert t[|body|] == op;
      }
    }
  }

  /** Which object each call of frame `imageIndex` must name: the in-flight
      fence, the swapchain, that frame's command buffer and framebuffer, the
      raster render pass and pipeline, a 3-vertex draw, and the semaphores in
      their roles (the submission waits on image-available at the
      colour-attachment-output stage and signals render-finished and the
      fence; the present waits on render-finished). */
  predicate TargetsFrame(ctx: RenderContext, imageIndex: nat, op: Op)
    requires imageIndex < |ctx.frames|
  {
    var frame := ctx.frames[imageIndex];
    match op
    case WaitForFence(f) => f == ctx.inFlightFence
    case ResetFence(f) => f == ctx.inFlightFence
    case AcquireNextImage(sc, sem, idx) => sc == ctx.swapchain && sem == ctx.imageAvailable && idx == imageIndex
    case ResetCommandBuffer(cb) => cb == frame.commandBuffer
    case BeginCommandBuffer(cb, oneTime) => cb == frame.commandBuffer && !oneTime
    case BeginRenderPass(cb, rp, fb, area) =>
      cb == frame.commandBuffer && rp == ctx.renderPass && fb == frame.frameBuffer && area == ctx.extent
    case BindPipeline(cb, p) => cb == frame.commandBuffer && p == ctx.pipeline
    case Draw(cb, v, n, fv, fi) => cb == frame.commandBuffer && v == 3 && n == 1 && fv == 0 && fi == 0
    case RenderCallback(exposed) => exposed == Some(frame.commandBuffer)
    case EndRenderPass(cb) => cb == frame.commandBuffer
    case EndCommandBuffer(cb) => cb == frame.commandBuffer
    case Submit(cb, w, stage, s, f, _) =>
      cb == frame.commandBuffer && w == ctx.imageAvailable && stage == ColorAttachmentOutput
      && s == ctx.renderFinished && f == ctx.inFlightFence
    case LogSubmitFailure => true
    case Present(w, sc, idx) => w == ctx.renderFinished && sc == ctx.swapchain && idx == imageIndex
    case AllocateCommandBuffer(_, _) => false
    case SubmitOneShot(_) => false
    case QueueWaitIdle => false
    case FreeCommandBuffer(_, _) => false
  }

  datatype Status = Completed | Aborted(reason: string)

  /** The calls made, the context afterwards, and whether a fatal assertion stopped the process. */
  datatype Step = Step(trace: seq<Op>, ctx: RenderContext, status: Status)

  /** The render-extension callback runs strictly between beginning and
      ending the render pass on the command buffer it is shown. */
  predicate CallbackInsideRenderPass(t: seq<Op>, cb: Handle) {
    exists a, c, b :: 0 <= a < c < b < |t|
      && t[a].BeginRenderPass? && t[a].cb == cb
      && t[c] == RenderCallback(Some(cb))
      && t[b] == EndRenderPass(cb)
  }

  /** The seven calls of a fully recorded frame, in order. */
  function RecordedCalls(ctx: RenderContext, imageIndex: nat): (t: seq<Op>)
    requires imageIndex < |ctx.frames|
    ensures |t| == 7
    ensures Consecutive(t, 4)
    ensures forall k :: 0 <= k < 7 ==> TargetsFrame(ctx, imageIndex, t[k])
  {
    var frame := ctx.frames[imageIndex];
    var cb := frame.commandBuffer;
    [BeginCommandBuffer(cb, false),
     BeginRenderPass(cb, ctx.renderPass, frame.frameBuffer, ctx.extent),
     BindPipeline(cb, ctx.pipeline),
     Draw(cb, 3, 1, 0, 0),
     RenderCallback(Some(cb)),
     EndRenderPass(cb),
     EndCommandBuffer(cb)]
  }

  /** RecordDrawCommands: exposes the frame's command buffer as
      m_CurrentCommandBuffer, records begin, render pass, pipeline bind,
      draw(3, 1, 0, 0), the render callback (which is shown the exposed
      buffer), end of pass and end, then clears the exposure. A rejected
      begin or end is a fatal assertion. */
  function RecordDrawCommands(ctx: RenderContext, imageIndex: nat, beginRejected: bool, endRejected: bool): (r: Step)
    requires imageIndex < |ctx.frames|
    ensures r.status.Completed? <==> !beginRejected && !endRejected
    ensures r.status.Completed? ==> r.ctx == ctx.(currentCommandBuffer := None)
    ensures r.status.Aborted? ==> r.ctx == ctx.(currentCommandBuffer := Some(ctx.frames[imageIndex].commandBuffer))
    ensures Consecutive(r.trace, 4)
    ensures r.status.Completed? ==> |r.trace| == 7
    ensures r.status.Aborted? ==> |r.trace| < 7
    ensures forall i :: 0 <= i < |r.trace| ==> TargetsFrame(ctx, imageIndex, r.trace[i])
    ensures !beginRejected ==> CallbackInsideRenderPass(r.trace, ctx.frames[imageIndex].commandBuffer)
  {
    var cb := ctx.frames[imageIndex].commandBuffer;
    var exposed := ctx.(currentCommandBuffer := Some(cb));
    var calls := RecordedCalls(ctx, imageIndex);
    if beginRejected then
      Step([], exposed, Aborted("Could not begin recording command buffer"))
    else
      var t := if endRejected then calls[..6] else calls;
      assert t[1].BeginRenderPass? && t[1].cb == cb && t[4] == RenderCallback(Some(cb)) && t[5] == EndRenderPass(cb);
      if endRejected then Step(t, exposed, Aborted("Failed recording command buffer"))
      else Step(t, exposed.(currentCommandBuffer := None), Completed)
  }

  /** Every call of the trace names the objects of frame `imageIndex`. */
  predicate AllTarget(ctx: RenderContext, imageIndex: nat, t: seq<Op>)
    requires imageIndex < |ctx.frames|
  {
    forall i :: 0 <= i < |t| ==> TargetsFrame(ctx, imageIndex, t[i])
  }

  lemma AllTargetAppend(ctx: RenderContext, imageIndex: nat, a: seq<Op>, b: seq<Op>)
    requires imageIndex < |ctx.frames|
    requires AllTarget(ctx, imageIndex, a) && AllTarget(ctx, imageIndex, b)
    ensures AllTarget(ctx, imageIndex, a + b)
  {
  }

  /** Every submission in the trace has the given driver answer. */
  predicate SubmitsAs(t: seq<Op>, accepted: bool) {
    forall i :: 0 <= i < |t| && t[i].Submit? ==> t[i].accepted == accepted
  }

  /** Wait on and reset the in-flight fence, acquire an image, reset its command buffer. */
  function FrameOpening(ctx: RenderContext, imageIndex: nat): (t: seq<Op>)
    requires imageIndex < |ctx.frames|
    ensures |t| == 4 && Consecutive(t, 0) && AllTarget(ctx, imageIndex, t) && SubmitsAs(t, true)
  {
    [WaitForFence(ctx.inFlightFence),
     ResetFence(ctx.inFlightFence),
     AcquireNextImage(ctx.swapchain, ctx.imageAvailable, imageIndex),
     ResetCommandBuffer(ctx.frames[imageIndex].commandBuffer)]
  }

  /** Submit, log a rejected submission, present. */
  function FrameClosing(ctx: RenderContext, imageIndex: nat, submitRejected: bool): (t: seq<Op>)
    requires imageIndex < |ctx.frames|
    ensures |t| == (if submitRejected then 3 else 2)
    ensures Consecutive(t[..|t| - 1], 11) && Phase(t[|t| - 1]) == 13
    ensures AllTarget(ctx, imageIndex, t) && SubmitsAs(t, !submitRejected)
  {
    var submit := Submit(ctx.frames[imageIndex].commandBuffer, ctx.imageAvailable, ColorAttachmentOutput,
                         ctx.renderFinished, ctx.inFlightFence, !submitRejected);
    var present := Present(ctx.renderFinished, ctx.swapchain, imageIndex);
    if submitRejected then [submit, LogSubmitFailure, present] else [submit, present]
  }

  lemma FrameAppend(ctx: RenderContext, imageIndex: nat, a: seq<Op>, b: seq<Op>, lo: nat, accepted: bool)
    requires imageIndex < |ctx.frames|
    requires Consecutive(a, lo) && AllTarget(ctx, imageIndex, a) && SubmitsAs(a, accepted)
    requires |b| > 0 && Consecutive(b[..|b| - 1], lo + |a|)
    requires AllTarget(ctx, imageIndex, b) && SubmitsAs(b, accepted)
    ensures AllTarget(ctx, imageIndex, a + b) && SubmitsAs(a + b, accepted)
    ensures Consecutive((a + b)[..|a + b| - 1], lo)
    ensures (a + b)[|a + b| - 1] == b[|b| - 1]
  {
    assert (a + b)[..|a + b| - 1] == a + b[..|b| - 1];
    ConsecutiveAppend(a, b[..|b| - 1], lo);
  }

  /** SwapBuffers: wait on and reset the in-flight fence, acquire an image
      (the driver picks `imageIndex`), reset and re-record that frame's command
      buffer, submit it, and present. A rejected submission is only logged and
      the present still happens. The calls are the protocol steps, one each,
      in protocol order: all of them up to the submission, the log line only
      when the submission was rejected, then the present. */
  function SwapBuffers(ctx: RenderContext, imageIndex: nat, beginRejected: bool, endRejected: bool, submitRejected: bool): (r: Step)
    requires imageIndex < |ctx.frames|
    ensures r.status.Completed? <==> !beginRejected && !endRejected
    ensures r.status.Completed? ==> r.ctx == ctx.(currentCommandBuffer := None)
    ensures r.ctx.frames == ctx.frames
    ensures AllTarget(ctx, imageIndex, r.trace)
    ensures SubmitsAs(r.trace, !submitRejected)
    ensures r.status.Aborted? ==> Consecutive(r.trace, 0) && 4 <= |r.trace| <= 10
    ensures r.status.Completed? ==>
      && |r.trace| == (if submitRejected then 14 else 13)
      && Consecutive(r.trace[..|r.trace| - 1], 0)
      && Phase(r.trace[|r.trace| - 1]) == 13
  {
    var opening := FrameOpening(ctx, imageIndex);
    var rec := RecordDrawCommands(ctx, imageIndex, beginRejected, endRejected);
    assert SubmitsAs(rec.trace, !submitRejected);
    ConsecutiveAppend(opening, rec.trace, 0);
    AllTargetAppend(ctx, imageIndex, opening, rec.trace);
    var front := opening + rec.trace;
    if rec.status.Aborted? then
      Step(front, rec.ctx, rec.status)
    else
      var closing := FrameClosing(ctx, imageIndex, submitRejected);
      FrameAppend(ctx, imageIndex, front, closing, 0, !submitRejected);
      Step(front + closing, rec.ctx, Completed)
  }

  /** Read as a protocol: each step at most once and in order; a completed
      frame has every step up to the present, the log step exactly when the
      submission was rejected; an aborted frame neither submits nor presents. */
  lemma SwapBuffersFollowsProtocol(ctx: RenderContext, imageIndex: nat, beginRejected: bool, endRejected: bool, submitRejected: bool)
    requires imageIndex < |ctx.frames|
    ensures var r := SwapBuffers(ctx, imageIndex, beginRejected, endRejected, submitRejected);
      && InPhaseOrder(r.trace)
      && (forall k: nat :: k <= 3 ==> HasPhase(r.trace, k))
      && (r.status.Completed? ==> forall k: nat :: k <= 13 && k != 12 ==> HasPhase(r.trace, k))
      && (r.status.Completed? ==> (HasPhase(r.trace, 12) <==> submitRejected))
      && (r.status.Aborted? ==> !HasPhase(r.trace, 11) && !HasPhase(r.trace, 13))
  {
    var r := SwapBuffers(ctx, imageIndex, beginRejected, endRejected, submitRejected);
    if r.status.Aborted? {
      ConsecutiveIsOrdered(r.trace, 0);
    } else {
      var body := r.trace[..|r.trace| - 1];
      assert r.trace == body + [r.trace[|r.trace| - 1]];
      ClosedBy(body, r.trace[|r.trace| - 1]);
    }
  }

  // ---------------------------------------------------------------------
  // Synchronisation rules (the chapter "Synchronization and Cache Control"
  // of the Vulkan 1.3 specification, reduced to the objects the context uses).
  // ---------------------------------------------------------------------

  /** SignalPending: a queue submission that will signal the fence is in flight. */
  datatype FenceState = Signalled | Unsignalled | SignalPending

  /** The device-side state of the context's synchronisation objects and the
      command buffers whose execution may not have finished. */
  datatype SyncState = SyncState(fence: FenceState, imageAvailable: bool, renderFinished: bool, pending: set<Handle>)

  /** The objects the synchronisation rules are about. */
  datatype SyncHandles = SyncHandles(fence: Handle, imageAvailable: Handle, renderFinished: Handle, commandPool: Handle)

  function HandlesOf(ctx: RenderContext): SyncHandles {
    SyncHandles(ctx.inFlightFence, ctx.imageAvailable, ctx.renderFinished, ctx.commandPool)
  }

  /** Between frames: the fence is signalled or will be, and neither
      semaphore has an unconsumed signal. */
  predicate Steady(st: SyncState) {
    st.fence != Unsignalled && !st.imageAvailable && !st.renderFinished
  }

  /** The effect of one call, or None when the call breaks a usage rule -- or
      is a fence wait with an unbounded timeout that nothing will ever end.
      `pending` does not tell fenced frame submissions from fenceless one-shot
      submissions, so a returning fence wait retires every pending buffer,
      one-shot ones included. That is more permissive than Vulkan. The traces
      of this model never rely on it: the one-shot path waits for the queue
      to go idle before its free. */
  function Apply(h: SyncHandles, st: SyncState, op: Op): Option<SyncState> {
    match op
    case WaitForFence(f) =>
      if f != h.fence || st.fence == Unsignalled then None
      else Some(st.(fence := Signalled, pending := {}))
    case ResetFence(f) =>
      if f != h.fence || st.fence == SignalPending then None
      else Some(st.(fence := Unsignalled))
    case AcquireNextImage(_, sem, _) =>
      if sem != h.imageAvailable || st.imageAvailable then None
      else Some(st.(imageAvailable := true))
    case ResetCommandBuffer(cb) => if cb in st.pending then None else Some(st)
    case BeginCommandBuffer(cb, _) => if cb in st.pending then None else Some(st)
    case Submit(cb, w, _, s, f, accepted) =>
      if !accepted then Some(st)
      else if w != h.imageAvailable || !st.imageAvailable
              || s != h.renderFinished || st.renderFinished
              || f != h.fence || st.fence != Unsignalled
              || cb in st.pending then None
      else Some(SyncState(SignalPending, false, true, st.pending + {cb}))
    case Present(w, _, _) =>
      if w != h.renderFinished || !st.renderFinished then None
      else Some(st.(renderFinished := false))
    case AllocateCommandBuffer(pool, cb) =>
      if pool != h.commandPool || cb in st.pending then None else Some(st)
    case SubmitOneShot(cb) =>
      if cb in st.pending then None else Some(st.(pending := st.pending + {cb}))
    case QueueWaitIdle =>
      Some(st.(fence := if st.fence == SignalPending then Signalled else st.fence, pending := {}))
    case FreeCommandBuffer(pool, cb) =>
      if pool != h.commandPool || cb in st.pending then None else Some(st)
    case _ => Some(st)
  }

  /** A trace run call by call; None as soon as one call breaks a rule. */
  function Run(h: SyncHandles, st: SyncState, t: seq<Op>): Option<SyncState>
    decreases |t|
  {
    if |t| == 0 then Some(st)
    else match Apply(h, st, t[0])
      case None => None
      case Some(st') => Run(h, st', t[1..])
  }

  lemma {:induction false} RunAppend(h: SyncHandles, st: SyncState, a: seq<Op>, b: seq<Op>)
    ensures Run(h, st, a + b) == match Run(h, st, a)
                                 case None => None
                                 case Some(st') => Run(h, st', b)
    decreases |a|
  {
    if |a| > 0 {
      assert (a + b)[0] == a[0] && (a + b)[1..] == a[1..] + b;
      match Apply(h, st, a[0])
      case None =>
      case Some(st') => RunAppend(h, st', a[1..], b);
    } else {
      assert a + b == b;
    }
  }

  /** One call, then the rest. */
  lemma RunCons(h: SyncHandles, st: SyncState, t: seq<Op>)
    requires |t| > 0
    ensures Run(h, st, t) == match Apply(h, st, t[0])
                             case None => None
                             case Some(st') => Run(h, st', t[1..])
  {
  }

  /** The state the freshly created objects start in: MakeFence's fence is
      signalled and MakeSemaphore's semaphores are not. */
  function InitialSyncState(objs: SyncUtils.SyncObjects): SyncState {
    SyncState(if objs.inFlight.signalled then Signalled else Unsignalled,
              objs.imageAvailable.signalled, objs.renderFinished.signalled, {})
  }

  /** Cold start: once the creation calls succeed, the objects are in the
      steady state, so the first frame's fence wait returns at once. */
  lemma ColdStartIsSteady(alloc: Allocator, fault: Fault, h: SyncHandles)
    requires SyncUtils.MakeSyncObjects(alloc, fault).Ok?
    ensures Steady(InitialSyncState(SyncUtils.MakeSyncObjects(alloc, fault).value))
    ensures Apply(h, InitialSyncState(SyncUtils.MakeSyncObjects(alloc, fault).value), WaitForFence(h.fence)).Some?
  {
  }

  /** The calls between acquiring and submitting leave the state alone when
      the frame's command buffer is not pending. */
  lemma {:induction false} RecordingRunsUnchanged(h: SyncHandles, st: SyncState, t: seq<Op>, cb: Handle)
    requires cb !in st.pending
    requires forall i :: 0 <= i < |t| ==> 3 <= Phase(t[i]) <= 10
    requires forall i :: 0 <= i < |t| ==> (t[i].ResetCommandBuffer? || t[i].BeginCommandBuffer?) ==> t[i].cb == cb
    ensures Run(h, st, t) == Some(st)
    decreases |t|
  {
    if |t| > 0 {
      assert Apply(h, st, t[0]) == Some(st);
      assert forall i :: 0 <= i < |t| - 1 ==> t[1..][i] == t[i + 1];
      RecordingRunsUnchanged(h, st, t[1..], cb);
    }
  }

  /** A phase and the frame it belongs to fix the fence, semaphore and
      command-buffer arguments of a call. */
  lemma CallOfPhase(ctx: RenderContext, imageIndex: nat, op: Op)
    requires imageIndex < |ctx.frames| && TargetsFrame(ctx, imageIndex, op)
    ensures Phase(op) == 0 ==> op == WaitForFence(ctx.inFlightFence)
    ensures Phase(op) == 1 ==> op == ResetFence(ctx.inFlightFence)
    ensures Phase(op) == 2 ==> op.AcquireNextImage? && op.signal == ctx.imageAvailable
    ensures 3 <= Phase(op) <= 10 && (op.ResetCommandBuffer? || op.BeginCommandBuffer?) ==>
              op.cb == ctx.frames[imageIndex].commandBuffer
    ensures Phase(op) == 11 ==>
              op == Submit(ctx.frames[imageIndex].commandBuffer, ctx.imageAvailable, ColorAttachmentOutput,
                           ctx.renderFinished, ctx.inFlightFence, op.accepted)
    ensures Phase(op) == 13 ==> op.Present? && op.wait == ctx.renderFinished
  {
  }

  /** The first eleven calls of a frame, run from a steady state: the fence
      wait retires everything, then the fence is reset and an image acquired,
      and recording changes nothing. */
  lemma FramePrologueRuns(ctx: RenderContext, st: SyncState, imageIndex: nat, t: seq<Op>)
    requires imageIndex < |ctx.frames|
    requires Steady(st)
    requires |t| >= 11
    requires forall i :: 0 <= i < 11 ==> Phase(t[i]) == i
    requires AllTarget(ctx, imageIndex, t)
    ensures Run(HandlesOf(ctx), st, t) == Run(HandlesOf(ctx), SyncState(Unsignalled, true, false, {}), t[11..])
  {
    var h := HandlesOf(ctx);
    var cb := ctx.frames[imageIndex].commandBuffer;
    CallOfPhase(ctx, imageIndex, t[0]);
    CallOfPhase(ctx, imageIndex, t[1]);
    CallOfPhase(ctx, imageIndex, t[2]);
    var s0 := st.(fence := Signalled, pending := {});
    var s1 := s0.(fence := Unsignalled);
    var s2 := SyncState(Unsignalled, true, false, {});
    RunCons(h, st, t);
    assert t[1..][0] == t[1] && t[1..][1..] == t[2..];
    RunCons(h, s0, t[1..]);
    assert t[2..][0] == t[2] && t[2..][1..] == t[3..];
    RunCons(h, s1, t[2..]);
    var mid := t[3..11];
    assert t[3..] == mid + t[11..];
    RunAppend(h, s2, mid, t[11..]);
    forall i | 0 <= i < |mid|
      ensures 3 <= Phase(mid[i]) <= 10
      ensures (mid[i].ResetCommandBuffer? || mid[i].BeginCommandBuffer?) ==> mid[i].cb == cb
    {
      assert mid[i] == t[i + 3];
      CallOfPhase(ctx, imageIndex, t[i + 3]);
    }
    RecordingRunsUnchanged(h, s2, mid, cb);
  }

  /** The trace of an accepted frame, run from a steady state, breaks no rule
      -- in particular the command buffer is reset only after the fence wait
      has retired its previous submission, and the fence is reset only when
      no submission will signal it -- and ends steady again. */
  lemma SwapBuffersKeepsSyncValid(ctx: RenderContext, st: SyncState, imageIndex: nat)
    requires imageIndex < |ctx.frames|
    requires Steady(st)
    ensures var t := SwapBuffers(ctx, imageIndex, false, false, false).trace;
            && Run(HandlesOf(ctx), st, t).Some?
            && Steady(Run(HandlesOf(ctx), st, t).value)
  {
    var h := HandlesOf(ctx);
    var t := SwapBuffers(ctx, imageIndex, false, false, false).trace;
    var cb := ctx.frames[imageIndex].commandBuffer;
    assert forall i :: 0 <= i < 12 ==> t[..12][i] == t[i];
    FramePrologueRuns(ctx, st, imageIndex, t);
    CallOfPhase(ctx, imageIndex, t[11]);
    CallOfPhase(ctx, imageIndex, t[12]);
    var s2 := SyncState(Unsignalled, true, false, {});
    var s3 := SyncState(SignalPending, false, true, {cb});
    var rest := t[11..];
    RunCons(h, s2, rest);
    assert rest[0] == t[11] && rest[1..] == [t[12]];
    RunCons(h, s3, [t[12]]);
  }

  /** A rejected submission leaves render-finished without a pending signal,
      yet the present still waits on it: the frame breaks the rules at its
      present. */
  lemma SubmitFailureBreaksPresent(ctx: RenderContext, st: SyncState, imageIndex: nat)
    requires imageIndex < |ctx.frames|
    requires Steady(st)
    ensures var s := SwapBuffers(ctx, imageIndex, false, false, true);
            s.status.Completed? && Run(HandlesOf(ctx), st, s.trace) == None
  {
    var h := HandlesOf(ctx);
    var t := SwapBuffers(ctx, imageIndex, false, false, true).trace;
    assert forall i :: 0 <= i < 13 ==> t[..13][i] == t[i];
    FramePrologueRuns(ctx, st, imageIndex, t);
    CallOfPhase(ctx, imageIndex, t[11]);
    CallOfPhase(ctx, imageIndex, t[13]);
    var s2 := SyncState(Unsignalled, true, false, {});
    var rest := t[11..];
    RunCons(h, s2, rest);
    assert rest[0] == t[11] && rest[1..] == [t[12], t[13]];
    RunCons(h, s2, [t[12], t[13]]);
    assert [t[12], t[13]][1..] == [t[13]];
    RunCons(h, s2, [t[13]]);
  }

  /** ... and even if the present were skipped, the in-flight fence stays
      reset with no submission to signal it, so the next frame's unbounded
      fence wait never returns. */
  lemma SubmitFailureStallsNextFrame(ctx: RenderContext, st: SyncState, imageIndex: nat)
    requires imageIndex < |ctx.frames|
    requires Steady(st)
    ensures var t := SwapBuffers(ctx, imageIndex, false, false, true).trace;
            var before := t[..|t| - 1];
            && Run(HandlesOf(ctx), st, before).Some?
            && Run(HandlesOf(ctx), st, before).value.fence == Unsignalled
            && Apply(HandlesOf(ctx), Run(HandlesOf(ctx), st, before).value, WaitForFence(ctx.inFlightFence)) == None
  {
    var h := HandlesOf(ctx);
    var t := SwapBuffers(ctx, imageIndex, false, false, true).trace;
    var before := t[..13];
    assert AllTarget(ctx, imageIndex, before);
    FramePrologueRuns(ctx, st, imageIndex, before);
    CallOfPhase(ctx, imageIndex, before[11]);
    var s2 := SyncState(Unsignalled, true, false, {});
    var rest := before[11..];
    RunCons(h, s2, rest);
    assert rest[0] == before[11] && rest[1..] == [before[12]];
    assert Phase(before[12]) == 12;
    RunCons(h, s2, [before[12]]);
  }

  // ---------------------------------------------------------------------
  // Successive frames.
  // ---------------------------------------------------------------------

  /** What the driver answers during one SwapBuffers call. */
  datatype FrameInput = FrameInput(imageIndex: nat, beginRejected: bool, endRejected: bool, submitRejected: bool)

  predicate IndicesInRange(ctx: RenderContext, inputs: seq<FrameInput>) {
    forall i :: 0 <= i < |inputs| ==> inputs[i].imageIndex < |ctx.frames|
  }

  predicate AllAccepted(inputs: seq<FrameInput>) {
    forall i :: 0 <= i < |inputs| ==> !inputs[i].beginRejected && !inputs[i].endRejected && !inputs[i].submitRejected
  }

  /** No SwapBuffers call among the inputs hits a fatal assertion. */
  predicate NoneFatal(inputs: seq<FrameInput>) {
    forall i :: 0 <= i < |inputs| ==> !inputs[i].beginRejected && !inputs[i].endRejected
  }

  lemma NoneFatalCons(inputs: seq<FrameInput>)
    requires |inputs| > 0
    ensures NoneFatal(inputs) <==> !inputs[0].beginRejected && !inputs[0].endRejected && NoneFatal(inputs[1..])
  {
    assert forall i :: 1 <= i < |inputs| ==> inputs[1..][i - 1] == inputs[i];
  }

  /** The number of fence waits in a trace. */
  function CountWaits(t: seq<Op>): nat
    decreases |t|
  {
    if |t| == 0 then 0 else (if t[0].WaitForFence? then 1 else 0) + CountWaits(t[1..])
  }

  lemma {:induction false} CountWaitsAppend(a: seq<Op>, b: seq<Op>)
    ensures CountWaits(a + b) == CountWaits(a) + CountWaits(b)
    decreases |a|
  {
    if |a| == 0 {
      assert a + b == b;
    } else {
      assert (a + b)[0] == a[0] && (a + b)[1..] == a[1..] + b;
      CountWaitsAppend(a[1..], b);
    }
  }

  lemma {:induction false} NoWaitsPastPhaseZero(t: seq<Op>)
    requires forall i :: 0 <= i < |t| ==> Phase(t[i]) > 0
    ensures CountWaits(t) == 0
    decreases |t|
  {
    if |t| > 0 {
      assert forall i :: 0 <= i < |t| - 1 ==> t[1..][i] == t[i + 1];
      NoWaitsPastPhaseZero(t[1..]);
    }
  }

  /** Every SwapBuffers call waits on the fence exactly once. */
  lemma OneWaitPerFrame(ctx: RenderContext, imageIndex: nat, beginRejected: bool, endRejected: bool, submitRejected: bool)
    requires imageIndex < |ctx.frames|
    ensures CountWaits(SwapBuffers(ctx, imageIndex, beginRejected, endRejected, submitRejected).trace) == 1
  {
    var r := SwapBuffers(ctx, imageIndex, beginRejected, endRejected, submitRejected);
    var t := r.trace;
    if r.status.Completed? {
      assert forall i :: 0 <= i < |t| - 1 ==> t[..|t| - 1][i] == t[i];
    }
    assert Phase(t[0]) == 0;
    assert forall i :: 0 <= i < |t| - 1 ==> t[1..][i] == t[i + 1];
    NoWaitsPastPhaseZero(t[1..]);
  }

  /** The render loop: SwapBuffers once per input, stopping at the first
      fatal assertion. */
  function RunFrames(ctx: RenderContext, inputs: seq<FrameInput>): (r: Step)
    requires IndicesInRange(ctx, inputs)
    ensures r.ctx.frames == ctx.frames
    ensures HandlesOf(r.ctx) == HandlesOf(ctx)
    ensures r.status.Completed? <==> NoneFatal(inputs)
    ensures r.status.Completed? ==> CountWaits(r.trace) == |inputs|
    ensures r.status.Aborted? ==> 0 < CountWaits(r.trace) <= |inputs|
    decreases |inputs|
  {
    if |inputs| == 0 then Step([], ctx, Completed)
    else
      var inp := inputs[0];
      var s := SwapBuffers(ctx, inp.imageIndex, inp.beginRejected, inp.endRejected, inp.submitRejected);
      OneWaitPerFrame(ctx, inp.imageIndex, inp.beginRejected, inp.endRejected, inp.submitRejected);
      NoneFatalCons(inputs);
      if s.status.Aborted? then s
      else
        assert forall i :: 1 <= i < |inputs| ==> inputs[1..][i - 1] == inputs[i];
        var rest := RunFrames(s.ctx, inputs[1..]);
        CountWaitsAppend(s.trace, rest.trace);
        Step(s.trace + rest.trace, rest.ctx, rest.status)
  }

  /** However many frames run, as long as the driver accepts every call the
      loop never breaks a synchronisation rule -- in particular it never
      blocks forever in a fence wait -- and returns to the steady state after
      each frame. */
  lemma {:induction false} AcceptedFramesStayValid(ctx: RenderContext, st: SyncState, inputs: seq<FrameInput>)
    requires IndicesInRange(ctx, inputs) && AllAccepted(inputs)
    requires Steady(st)
    ensures var t := RunFrames(ctx, inputs).trace;
            && Run(HandlesOf(ctx), st, t).Some?
            && Steady(Run(HandlesOf(ctx), st, t).value)
    decreases |inputs|
  {
    if |inputs| > 0 {
      var h := HandlesOf(ctx);
      var inp := inputs[0];
      var s := SwapBuffers(ctx, inp.imageIndex, false, false, false);
      SwapBuffersKeepsSyncValid(ctx, st, inp.imageIndex);
      var st' := Run(h, st, s.trace).value;
      assert forall i :: 1 <= i < |inputs| ==> inputs[1..][i - 1] == inputs[i];
      AcceptedFramesStayValid(s.ctx, st', inputs[1..]);
      RunAppend(h, st, s.trace, RunFrames(s.ctx, inputs[1..]).trace);
    }
  }

  // ---------------------------------------------------------------------
  // One-shot command buffers (texture uploads, acceleration-structure builds).
  // ---------------------------------------------------------------------

  datatype OneShot = OneShot(cb: Handle, trace: seq<Op>, alloc: Allocator)

  /** CreateSingleTimeCommandBuffer: one fresh primary buffer from the
      context's pool, begun for one-time submission. */
  function CreateSingleTimeCommandBuffer(ctx: RenderContext, alloc: Allocator): (r: OneShot)
    ensures !alloc.Issued(r.cb) && r.alloc.Issued(r.cb) && alloc.next < r.alloc.next
    ensures |r.trace| == 2
    ensures r.trace[0].AllocateCommandBuffer? && r.trace[0].pool == ctx.commandPool && r.trace[0].cb == r.cb
    ensures r.trace[1].BeginCommandBuffer? && r.trace[1].cb == r.cb && r.trace[1].oneTimeSubmit
  {
    var (cb, a) := alloc.Fresh();
    OneShot(cb, [AllocateCommandBuffer(ctx.commandPool, cb), BeginCommandBuffer(cb, true)], a)
  }

  /** EndSingleTimeCommands: end, submit with no fence, wait for the queue
      to go idle, free the buffer back to the pool. */
  function EndSingleTimeCommands(ctx: RenderContext, cb: Handle): (t: seq<Op>)
    ensures |t| == 4 && t[0] == EndCommandBuffer(cb) && t[1] == SubmitOneShot(cb) && t[2] == QueueWaitIdle
    ensures t[3] == FreeCommandBuffer(ctx.commandPool, cb)
  {
    [EndCommandBuffer(cb), SubmitOneShot(cb), QueueWaitIdle, FreeCommandBuffer(ctx.commandPool, cb)]
  }

  /** Every buffer still executing was issued before `alloc` was reached. */
  predicate PendingIssued(st: SyncState, alloc: Allocator) {
    forall cb :: cb in st.pending ==> alloc.Issued(cb)
  }

  /** The one-shot path breaks no rule: the buffer is freed only after the
      queue has gone idle, and afterwards nothing is still executing and a
      frame's pending fence signal has landed. */
  lemma SingleTimeCommandsRetireBeforeFree(ctx: RenderContext, st: SyncState, alloc: Allocator)
    requires PendingIssued(st, alloc)
    ensures var o := CreateSingleTimeCommandBuffer(ctx, alloc);
            var r := Run(HandlesOf(ctx), st, o.trace + EndSingleTimeCommands(ctx, o.cb));
            && r.Some?
            && r.value.pending == {}
            && r.value.fence != SignalPending
            && r.value.imageAvailable == st.imageAvailable && r.value.renderFinished == st.renderFinished
  {
    var h := HandlesOf(ctx);
    var o := CreateSingleTimeCommandBuffer(ctx, alloc);
    var t := o.trace + EndSingleTimeCommands(ctx, o.cb);
    assert o.cb !in st.pending;
    var busy := st.(pending := st.pending + {o.cb});
    var idle := st.(fence := if st.fence == SignalPending then Signalled else st.fence, pending := {});
    RunThrough(h, t, [st, st, st, st, busy, idle, idle]);
  }

  /** Without the idle wait the free would hit a buffer that may still be
      executing: the wait is what makes the free legal. */
  lemma FreeNeedsIdleWait(ctx: RenderContext, st: SyncState, alloc: Allocator)
    requires PendingIssued(st, alloc)
    ensures var o := CreateSingleTimeCommandBuffer(ctx, alloc);
            var e := EndSingleTimeCommands(ctx, o.cb);
            Run(HandlesOf(ctx), st, o.trace + [e[0], e[1], e[3]]) == None
  {
    var h := HandlesOf(ctx);
    var o := CreateSingleTimeCommandBuffer(ctx, alloc);
    var e := EndSingleTimeCommands(ctx, o.cb);
    var t := o.trace + [e[0], e[1], e[3]];
    assert o.cb !in st.pending;
    var busy := st.(pending := st.pending + {o.cb});
    RunRejectedAt(h, t, [st, st, st, st, busy], 4);
  }

  /** Run along a trace whose intermediate states are known. */
  lemma {:induction false} RunThrough(h: SyncHandles, t: seq<Op>, states: seq<SyncState>)
    requires |states| == |t| + 1
    requires forall i :: 0 <= i < |t| ==> Apply(h, states[i], t[i]) == Some(states[i + 1])
    ensures Run(h, states[0], t) == Some(states[|t|])
    decreases |t|
  {
    if |t| > 0 {
      assert forall i :: 0 <= i < |t| - 1 ==> t[1..][i] == t[i + 1] && states[1..][i] == states[i + 1];
      RunThrough(h, t[1..], states[1..]);
    }
  }

  /** A trace whose call n is rejected after n accepted calls is rejected. */
  lemma RunRejectedAt(h: SyncHandles, t: seq<Op>, states: seq<SyncState>, n: nat)
    requires n < |t| && |states| == n + 1
    requires forall i :: 0 <= i < n ==> Apply(h, states[i], t[i]) == Some(states[i + 1])
    requires Apply(h, states[n], t[n]) == None
    ensures Run(h, states[0], t) == None
  {
    assert t == t[..n] + t[n..];
    assert forall i :: 0 <= i < n ==> t[..n][i] == t[i];
    RunThrough(h, t[..n], states);
    RunAppend(h, states[0], t[..n], t[n..]);
    RunCons(h, states[n], t[n..]);
  }
}

=== FILE: framebuffer_utils.dfy ===
/** One framebuffer per swapchain frame
    (Photon/src/Platform/Vulkan/VulkanFramebufferUtils.cpp). */
module FramebufferUtils {
  import opened VkTypes
  import opened Swapchain

  /** The vk::FramebufferCreateInfo fields MakeFrameBuffers sets. */
  datatype FramebufferCreateInfo = FramebufferCreateInfo(
    renderPass: Handle, attachments: seq<Handle>, width: u32, height: u32, layers: nat)

  datatype FramebufferSet = FramebufferSet(frames: seq<SwapchainFrame>, infos: seq<FramebufferCreateInfo>, alloc: Allocator)

  /** MakeFrameBuffers: every frame gets a fresh framebuffer whose single
      attachment is that frame's own image view, sized to the extent, one
      layer, for the given render pass. Only the FrameBuffer field is written.
      A rejected creation is a fatal assertion. */
  method MakeFrameBuffers(renderPass: Handle, extent: Extent2D, frames: seq<SwapchainFrame>,
                          alloc: Allocator, fault: Fault) returns (r: Outcome<FramebufferSet>)
    ensures r.Fatal? <==> fault.Some? && fault.value < |frames|
    ensures r.Ok? ==>
      var fb := r.value;
      && |fb.frames| == |frames| && |fb.infos| == |frames|
      && alloc.next <= fb.alloc.next
      && (forall i :: 0 <= i < |frames| ==>
            && fb.frames[i] == frames[i].(frameBuffer := fb.frames[i].frameBuffer)
            && !alloc.Issued(fb.frames[i].frameBuffer) && fb.alloc.Issued(fb.frames[i].frameBuffer)
            && fb.infos[i].attachments == [frames[i].imageView]
            && fb.infos[i].renderPass == renderPass
            && fb.infos[i].width == extent.width && fb.infos[i].height == extent.height
            && fb.infos[i].layers == 1)
      && (forall i, j :: 0 <= i < j < |frames| ==> fb.frames[i].frameBuffer != fb.frames[j].frameBuffer)
  {
    var out: seq<SwapchainFrame> := [];
    var infos: seq<FramebufferCreateInfo> := [];
    var a := alloc;
    var i := 0;
    while i < |frames|
      invariant 0 <= i <= |frames|
      invariant |out| == i && |infos| == i
      invariant a.next == alloc.next + i
      invariant fault.None? || i <= fault.value
      invariant forall k :: 0 <= k < i ==> out[k] == frames[k].(frameBuffer := Token(alloc.next + k))
      invariant forall k :: 0 <= k < i ==>
        infos[k] == FramebufferCreateInfo(renderPass, [frames[k].imageView], extent.width, extent.height, 1)
    {
      var info := FramebufferCreateInfo(renderPass, [frames[i].imageView], extent.width, extent.height, 1);
      if FailsAt(fault, i) {
        return Fatal("Could not create frame buffer");
      }
      var (fbHandle, a') := a.Fresh();
      out := out + [frames[i].(frameBuffer := fbHandle)];
      infos := infos + [info];
      a := a';
      i := i + 1;
    }
    return Ok(FramebufferSet(out, infos, a));
  }
}

=== FILE: queue_families.dfy ===
/** Queue-family resolution, queue de-duplication, logical-device
    configuration and the swapchain's image-sharing choice, as
    VulkanContext::Init performs them (Photon/src/Platform/Vulkan/VulkanContext.cpp). */
module QueueFamilies {
  import opened VkTypes

  /** One entry of getQueueFamilyProperties, together with the answer
      getSurfaceSupportKHR gives for that family index and the window surface. */
  datatype QueueFamily = QueueFamily(graphics: bool, presentSupport: bool)

  /** VulkanContext::QueueFamilyIndices */
  datatype QueueFamilyIndices = QueueFamilyIndices(graphicsFamily: Option<nat>, presentFamily: Option<nat>) {
    predicate IsComplete() {
      graphicsFamily.Some? && presentFamily.Some?
    }
  }

  /** Some family at or before index k supports graphics. */
  predicate GraphicsUpTo(families: seq<QueueFamily>, k: int) {
    exists j :: 0 <= j <= k && j < |families| && families[j].graphics
  }

  /** Some family at or before index k can present to the surface. */
  predicate PresentUpTo(families: seq<QueueFamily>, k: int) {
    exists j :: 0 <= j <= k && j < |families| && families[j].presentSupport
  }

  /** The scan may stop at k: by then both roles have been seen. */
  predicate Stops(families: seq<QueueFamily>, k: int) {
    0 <= k < |families| && GraphicsUpTo(families, k) && PresentUpTo(families, k)
  }

  function Max(a: nat, b: nat): nat {
    if a >= b then a else b
  }

  /** (g, p) is what the scan records when it stops: k = max(g, p) is the
      first index at which it may stop, and g and p are the LAST graphics and
      present families at or before k -- not the lowest ones. */
  predicate ResolvedAt(families: seq<QueueFamily>, g: nat, p: nat) {
    var k := Max(g, p);
    && k < |families|
    && families[g].graphics
    && families[p].presentSupport
    && (forall j :: g < j <= k ==> !families[j].graphics)
    && (forall j :: p < j <= k ==> !families[j].presentSupport)
    && Stops(families, k)
    && (forall j :: 0 <= j < k ==> !Stops(families, j))
  }

  /** What the loop knows after inspecting families[..i] without completing. */
  predicate ScanInvariant(families: seq<QueueFamily>, i: nat, g: Option<nat>, p: Option<nat>) {
    && i <= |families|
    && (g.None? <==> forall j :: 0 <= j < i ==> !families[j].graphics)
    && (p.None? <==> forall j :: 0 <= j < i ==> !families[j].presentSupport)
    && (g.Some? ==> g.value < i && families[g.value].graphics
                    && forall j :: g.value < j < i ==> !families[j].graphics)
    && (p.Some? ==> p.value < i && families[p.value].presentSupport
                    && forall j :: p.value < j < i ==> !families[j].presentSupport)
    && !(g.Some? && p.Some?)
  }

  /** The body of the resolution loop from index i on: each family overwrites
      the index of every role it supports, and the scan stops as soon as both
      roles are set. */
  function ScanFamilies(families: seq<QueueFamily>, i: nat, g: Option<nat>, p: Option<nat>): (r: (Option<nat>, Option<nat>))
    requires ScanInvariant(families, i, g, p)
    decreases |families| - i
    ensures (r.0.Some? && r.1.Some?) <==> exists k :: 0 <= k < |families| && Stops(families, k)
    ensures r.0.Some? && r.1.Some? ==> ResolvedAt(families, r.0.value, r.1.value)
  {
    if i == |families| then
      assert forall k :: 0 <= k < |families| ==> !Stops(families, k) by {
        forall k | 0 <= k < |families| ensures !Stops(families, k) {
          if g.None? {
            assert !GraphicsUpTo(families, k);
          } else {
            assert !PresentUpTo(families, k);
          }
        }
      }
      (g, p)
    else
      var g' := if families[i].graphics then Some(i) else g;
      var p' := if families[i].presentSupport then Some(i) else p;
      if g'.Some? && p'.Some? then
        assert Stops(families, i) by {
          assert families[g'.value].graphics && families[p'.value].presentSupport;
        }
        assert forall j :: 0 <= j < i ==> !Stops(families, j) by {
          forall j | 0 <= j < i ensures !Stops(families, j) {
            if g.None? {
              assert !GraphicsUpTo(families, j);
            } else {
              assert !PresentUpTo(families, j);
            }
          }
        }
        assert Max(g'.value, p'.value) == i;
        (g', p')
      else
        ScanFamilies(families, i + 1, g', p')
  }

  /** Queue-family resolution: an assertion stops start-up when no index ever
      has both roles covered, i.e. when the device has no graphics family or
      no family that can present to the surface. */
  function ResolveQueueFamilies(families: seq<QueueFamily>): (r: Outcome<QueueFamilyIndices>)
    ensures r.Fatal? <==> forall k :: 0 <= k < |families| ==> !Stops(families, k)
    ensures r.Fatal? <==> ((forall j :: 0 <= j < |families| ==> !families[j].graphics)
                           || (forall j :: 0 <= j < |families| ==> !families[j].presentSupport))
    ensures r.Ok? ==> r.value.IsComplete()
                      && ResolvedAt(families, r.value.graphicsFamily.value, r.value.presentFamily.value)
  {
    var (g, p) := ScanFamilies(families, 0, None, None);
    if QueueFamilyIndices(g, p).IsComplete() then
      Ok(QueueFamilyIndices(g, p))
    else
      assert (forall j :: 0 <= j < |families| ==> !families[j].graphics)
             || (forall j :: 0 <= j < |families| ==> !families[j].presentSupport) by {
        if exists a :: 0 <= a < |families| && families[a].graphics {
          var a :| 0 <= a < |families| && families[a].graphics;
          if exists b :: 0 <= b < |families| && families[b].presentSupport {
            var b :| 0 <= b < |families| && families[b].presentSupport;
            assert Stops(families, Max(a, b));
          }
        }
      }
      Fatal("Not all queue families have been found")
  }

  /** The resolution is determined by the families: ResolvedAt has exactly one
      solution, so the stored indices are the last qualifying families at or
      before the first stopping index. */
  lemma {:induction false} ResolvedAtIsUnique(families: seq<QueueFamily>, g1: nat, p1: nat, g2: nat, p2: nat)
    requires ResolvedAt(families, g1, p1) && ResolvedAt(families, g2, p2)
    ensures g1 == g2 && p1 == p2
  {
  }

  /** The scan is not the first-match policy: with a graphics-only family 0
      followed by a family that does both, both roles land on family 1. */
  lemma ResolutionIsNotLowestIndex()
    ensures ResolveQueueFamilies([QueueFamily(true, false), QueueFamily(true, true)])
            == Ok(QueueFamilyIndices(Some(1), Some(1)))
  {
    var fams := [QueueFamily(true, false), QueueFamily(true, true)];
    var r := ResolveQueueFamilies(fams);
    assert Stops(fams, 1);
    assert !Stops(fams, 0) by { assert !PresentUpTo(fams, 0); }
    ResolvedAtIsUnique(fams, r.value.graphicsFamily.value, r.value.presentFamily.value, 1, 1);
  }

  /** The families a queue is requested from: the graphics family, then the
      present family when it differs. */
  function UniqueIndices(indices: QueueFamilyIndices): (r: seq<nat>)
    requires indices.IsComplete()
    ensures |r| == 1 <==> indices.graphicsFamily == indices.presentFamily
    ensures |r| == 2 <==> indices.graphicsFamily != indices.presentFamily
    ensures r[0] == indices.graphicsFamily.value
    ensures forall i, j :: 0 <= i < j < |r| ==> r[i] != r[j]
    ensures forall f :: f in r <==> f == indices.graphicsFamily.value || f == indices.presentFamily.value
  {
    var g := indices.graphicsFamily.value;
    var p := indices.presentFamily.value;
    [g] + (if g != p then [p] else [])
  }

  /** The family of each queue create-info AS WRITTEN: the loop over the unique
      indices passes graphicsFamily every time instead of the loop variable. */
  function QueueCreateFamiliesAsWritten(indices: QueueFamilyIndices): (r: seq<nat>)
    requires indices.IsComplete()
    ensures |r| == |UniqueIndices(indices)|
    ensures forall i :: 0 <= i < |r| ==> r[i] == indices.graphicsFamily.value
  {
    seq(|UniqueIndices(indices)|, _ => indices.graphicsFamily.value)
  }

  /** When the roles differ, the as-written create-infos name the graphics
      family twice (Vulkan requires distinct families) and never the present
      family, from which the context later fetches its present queue. */
  lemma AsWrittenSkipsPresentFamily(indices: QueueFamilyIndices)
    requires indices.IsComplete()
    requires indices.graphicsFamily != indices.presentFamily
    ensures QueueCreateFamiliesAsWritten(indices) == [indices.graphicsFamily.value, indices.graphicsFamily.value]
    ensures indices.presentFamily.value !in QueueCreateFamiliesAsWritten(indices)
  {
  }

  /** Corrected: one create-info per unique family, using the loop variable. */
  function QueueCreateFamilies(indices: QueueFamilyIndices): (r: seq<nat>)
    requires indices.IsComplete()
    ensures forall i, j :: 0 <= i < j < |r| ==> r[i] != r[j]
    ensures indices.graphicsFamily.value in r && indices.presentFamily.value in r
    ensures forall f :: f in r ==> f == indices.graphicsFamily.value || f == indices.presentFamily.value
  {
    UniqueIndices(indices)
  }

  /** vk::SharingMode */
  datatype SharingMode = Exclusive | Concurrent

  /** The sharing fields of the swapchain create-info. */
  datatype ImageSharing = ImageSharing(mode: SharingMode, queueFamilyIndices: seq<nat>)

  /** Concurrent sharing over [graphics, present] when the roles sit in
      different families, exclusive ownership otherwise. */
  function ChooseSharing(indices: QueueFamilyIndices): (r: ImageSharing)
    requires indices.IsComplete()
    ensures r.mode == Concurrent <==> indices.graphicsFamily != indices.presentFamily
    ensures r.mode == Concurrent ==> r.queueFamilyIndices == [indices.graphicsFamily.value, indices.presentFamily.value]
    ensures r.mode == Exclusive ==> r.queueFamilyIndices == []
  {
    var g := indices.graphicsFamily.value;
    var p := indices.presentFamily.value;
    if g != p then ImageSharing(Concurrent, [g, p]) else ImageSharing(Exclusive, [])
  }

  /** The sharing choice agrees with the de-duplication: the swapchain is
      shared exactly when two queue families are in use, and then it lists
      precisely those families. */
  lemma SharingMatchesUniqueIndices(indices: QueueFamilyIndices)
    requires indices.IsComplete()
    ensures ChooseSharing(indices).mode == Concurrent <==> |UniqueIndices(indices)| == 2
    ensures ChooseSharing(indices).mode == Concurrent ==> ChooseSharing(indices).queueFamilyIndices == UniqueIndices(indices)
    ensures ChooseSharing(indices).mode == Exclusive ==> UniqueIndices(indices) == [indices.graphicsFamily.value]
  {
  }

  /** Device extensions the context enables on the logical device. */
  const ContextDeviceExtensions: seq<string> := [
    "VK_KHR_swapchain",
    "VK_KHR_deferred_host_operations",
    "VK_KHR_acceleration_structure",
    "VK_KHR_ray_tracing_pipeline",
    "VK_KHR_buffer_device_address"
  ]

  /** The parts of vk::DeviceCreateInfo with behaviour: queue families (one
      queue of priority 1.0 each), layers, extensions and the feature chain. */
  datatype DeviceCreateInfo = DeviceCreateInfo(
    queueFamilies: seq<nat>,
    layers: seq<string>,
    extensions: seq<string>,
    samplerAnisotropy: bool,
    bufferDeviceAddress: bool,
    accelerationStructure: bool,
    rayTracingPipeline: bool)

  /** The logical-device request as VulkanContext::Init builds it: every
      queue create-info names the graphics family. */
  function ContextDeviceCreateInfoAsWritten(indices: QueueFamilyIndices, layers: seq<string>): (r: DeviceCreateInfo)
    requires indices.IsComplete()
    ensures |r.queueFamilies| == |UniqueIndices(indices)|
    ensures forall i :: 0 <= i < |r.queueFamilies| ==> r.queueFamilies[i] == indices.graphicsFamily.value
    ensures r.layers == layers
    ensures "VK_KHR_swapchain" in r.extensions
    ensures r.samplerAnisotropy && r.bufferDeviceAddress && r.accelerationStructure && r.rayTracingPipeline
  {
    DeviceCreateInfo(QueueCreateFamiliesAsWritten(indices), layers, ContextDeviceExtensions, true, true, true, true)
  }

  /** As written, with the roles in different families the present queue is
      fetched from a family the device was never asked to create a queue in. */
  lemma AsWrittenPresentQueueWasNotCreated(indices: QueueFamilyIndices, layers: seq<string>)
    requires indices.IsComplete()
    requires indices.graphicsFamily != indices.presentFamily
    ensures ContextQueues(indices).1.family !in ContextDeviceCreateInfoAsWritten(indices, layers).queueFamilies
  {
    AsWrittenSkipsPresentFamily(indices);
  }

  /** Corrected: the logical-device request with one queue per unique family. */
  function ContextDeviceCreateInfo(indices: QueueFamilyIndices, layers: seq<string>): (r: DeviceCreateInfo)
    requires indices.IsComplete()
    ensures indices.graphicsFamily.value in r.queueFamilies && indices.presentFamily.value in r.queueFamilies
    ensures |r.queueFamilies| == |UniqueIndices(indices)|
    ensures r.layers == layers
    ensures "VK_KHR_swapchain" in r.extensions
    ensures r.samplerAnisotropy && r.bufferDeviceAddress && r.accelerationStructure && r.rayTracingPipeline
  {
    DeviceCreateInfo(QueueCreateFamilies(indices), layers, ContextDeviceExtensions, true, true, true, true)
  }

  /** A queue handle fetched with getQueue(family, index). */
  datatype QueueRef = QueueRef(family: nat, index: nat)

  /** The graphics and present queues the context fetches: queue 0 of each role's family. */
  function ContextQueues(indices: QueueFamilyIndices): (r: (QueueRef, QueueRef))
    requires indices.IsComplete()
    ensures r.0.family == indices.graphicsFamily.value && r.1.family == indices.presentFamily.value
    ensures r.0.index == 0 && r.1.index == 0
  {
    (QueueRef(indices.graphicsFamily.value, 0), QueueRef(indices.presentFamily.value, 0))
  }

  /** With the corrected queue list every queue the context fetches belongs to
      a family that was given a queue at device creation. */
  lemma FetchedQueuesWereCreated(indices: QueueFamilyIndices, layers: seq<string>)
    requires indices.IsComplete()
    ensures ContextQueues(indices).0.family in ContextDeviceCreateInfo(indices, layers).queueFamilies
    ensures ContextQueues(indices).1.family in ContextDeviceCreateInfo(indices, layers).queueFamilies
  {
  }

  /** The asymmetric-queues scenario: graphics only on family 0, presentation
      only on family 2. The swapchain is shared concurrently over [0, 2]. */
  lemma AsymmetricQueuesShareConcurrently()
    ensures var fams := [QueueFamily(true, false), QueueFamily(false, false), QueueFamily(false, true)];
            var r := ResolveQueueFamilies(fams);
            && r == Ok(QueueFamilyIndices(Some(0), Some(2)))
            && ChooseSharing(r.value) == ImageSharing(Concurrent, [0, 2])
  {
    var fams := [QueueFamily(true, false), QueueFamily(false, false), QueueFamily(false, true)];
    var r := ResolveQueueFamilies(fams);
    assert Stops(fams, 2);
    assert !Stops(fams, 0) by { assert !PresentUpTo(fams, 0); }
    assert !Stops(fams, 1) by { assert !PresentUpTo(fams, 1); }
    ResolvedAtIsUnique(fams, r.value.graphicsFamily.value, r.value.presentFamily.value, 0, 2);
  }
}

=== FILE: scene.dfy ===
/** Scene bookkeeping in VulkanContext: loading a model appends one model,
    one instance and one device description, textures get a placeholder, and
    the acceleration-structure inputs are derived per model (bottom level)
    and per instance (top level) (Photon/src/Platform/Vulkan/VulkanContext.cpp).
    Device addresses are identified with the buffers they address, and
    instance transforms are opaque values that are only carried along. */
module Scene {
  import opened VkTypes

  /** An nvmath::mat4f, carried without arithmetic. */
  datatype Transform = Transform(token: nat)

  /** What the OBJ loader produced for one file. */
  datatype LoadedObj = LoadedObj(vertexCount: nat, indexCount: nat, textures: seq<string>)

  /** ObjModel: counts and the four device buffers. */
  datatype ObjModel = ObjModel(nbIndices: u32, nbVertices: u32,
                               vertexBuffer: Handle, indexBuffer: Handle,
                               matColorBuffer: Handle, matIndexBuffer: Handle)

  datatype ObjInstance = ObjInstance(transform: Transform, objIndex: u32)

  /** ObjDesc: where the shaders find a model's data. */
  datatype ObjDesc = ObjDesc(txtOffset: u32, vertexAddress: Handle, indexAddress: Handle,
                             materialAddress: Handle, materialIndexAddress: Handle)

  datatype Texture = Texture(image: Handle)

  /** m_objModel, m_instances, m_objDesc and m_Textures. */
  datatype SceneState = SceneState(models: seq<ObjModel>, instances: seq<ObjInstance>,
                                   descs: seq<ObjDesc>, textures: seq<Texture>)

  const EmptyScene: SceneState := SceneState([], [], [], [])

  /** The bookkeeping the shaders rely on: model i has instance i (whose
      objIndex is i) and description i (which addresses model i's buffers);
      once a model exists there is at least one texture for the pipeline
      layout, and every texture offset is within the texture list. */
  predicate SceneConsistent(s: SceneState) {
    && |s.instances| == |s.models| && |s.descs| == |s.models|
    && (forall i :: 0 <= i < |s.instances| ==> s.instances[i].objIndex == i)
    && (forall i :: 0 <= i < |s.descs| ==> DescribesModel(s.descs[i], s.models[i]))
    && (forall i :: 0 <= i < |s.descs| ==> s.descs[i].txtOffset <= |s.textures|)
    && (|s.models| > 0 ==> |s.textures| > 0)
  }

  predicate DescribesModel(d: ObjDesc, m: ObjModel) {
    && d.vertexAddress == m.vertexBuffer && d.indexAddress == m.indexBuffer
    && d.materialAddress == m.matColorBuffer && d.materialIndexAddress == m.matIndexBuffer
  }

  /** CreateTextureImages as written: the placeholder texture is created only
      when the model has no textures and none exist yet; in every other case
      the assertion "Textured models are not supported" fires -- including an
      untextured model loaded after the placeholder exists. */
  function CreateTextureImagesAsWritten(existing: seq<Texture>, requested: seq<string>, alloc: Allocator): (r: Outcome<(seq<Texture>, Allocator)>)
    ensures r.Ok? <==> |requested| == 0 && |existing| == 0
    ensures r.Ok? ==> |r.value.0| == 1 && !alloc.Issued(r.value.0[0].image) && r.value.1.Issued(r.value.0[0].image)
  {
    if |requested| == 0 && |existing| == 0 then
      var (image, a) := alloc.Fresh();
      Ok(([Texture(image)], a))
    else
      Fatal("Textured models are not supported")
  }

  /** CreateTextureImages as its comment and message intend: textured models
      are refused, and an untextured model gets the placeholder if none
      exists yet, or reuses the existing textures. */
  function CreateTextureImages(existing: seq<Texture>, requested: seq<string>, alloc: Allocator): (r: Outcome<(seq<Texture>, Allocator)>)
    ensures r.Ok? <==> |requested| == 0
    ensures r.Ok? ==> |r.value.0| > 0 && existing <= r.value.0 && alloc.next <= r.value.1.next
    ensures r.Ok? && |existing| > 0 ==> r.value == (existing, alloc)
    ensures r.Ok? && |existing| == 0 ==>
              |r.value.0| == 1 && !alloc.Issued(r.value.0[0].image) && r.value.1.Issued(r.value.0[0].image)
  {
    if |requested| > 0 then Fatal("Textured models are not supported")
    else if |existing| == 0 then
      var (image, a) := alloc.Fresh();
      Ok(([Texture(image)], a))
    else
      Ok((existing, alloc))
  }

  /** The parts of LoadModel that both texture variants share, given the
      texture step's result. */
  function AppendModel(s: SceneState, obj: LoadedObj, transform: Transform, alloc: Allocator,
                       textures: Outcome<(seq<Texture>, Allocator)>): (r: Outcome<(SceneState, Allocator)>)
    requires textures.Ok? ==> alloc.next <= textures.value.1.next
    ensures r.Ok? <==> textures.Ok?
  {
    var (vertexBuffer, a1) := alloc.Fresh();
    var (indexBuffer, a2) := a1.Fresh();
    var (matColorBuffer, a3) := a2.Fresh();
    var (matIndexBuffer, a4) := a3.Fresh();
    var model := ObjModel(WrapU32(obj.indexCount), WrapU32(obj.vertexCount),
                          vertexBuffer, indexBuffer, matColorBuffer, matIndexBuffer);
    match textures
    case Fatal(reason) => Fatal(reason)
    case Ok((texs, a5)) =>
      var txtOffset := WrapU32(|s.textures|);
      var instance := ObjInstance(transform, WrapU32(|s.models|));
      var desc := ObjDesc(txtOffset, vertexBuffer, indexBuffer, matColorBuffer, matIndexBuffer);
      Ok((SceneState(s.models + [model], s.instances + [instance], s.descs + [desc], texs), a5))
  }

  /** LoadModel with the texture step as written. A load it lets through
      appends exactly what the corrected LoadModel appends, so that member's
      bookkeeping describes the program's own successful loads. */
  function LoadModelAsWritten(s: SceneState, obj: LoadedObj, transform: Transform, alloc: Allocator): (r: Outcome<(SceneState, Allocator)>)
    ensures r.Ok? <==> |obj.textures| == 0 && |s.textures| == 0
    ensures r.Ok? ==> r == LoadModel(s, obj, transform, alloc)
  {
    var a4 := Allocator(alloc.next + 4);
    AppendModel(s, obj, transform, alloc, CreateTextureImagesAsWritten(s.textures, obj.textures, a4))
  }

  /** LoadModel: four fresh buffers; nbIndices and nbVertices are the loader's
      counts cast to uint32_t; the instance's objIndex and the description's
      texture offset are the model and texture counts before the call; the
      description addresses the new buffers. Textured models are fatal.
      Corrected: this uses the corrected texture step, CreateTextureImages, so
      an untextured model after the first one reuses the placeholder; the
      source's behaviour is LoadModelAsWritten. */
  function LoadModel(s: SceneState, obj: LoadedObj, transform: Transform, alloc: Allocator): (r: Outcome<(SceneState, Allocator)>)
    ensures r.Ok? <==> |obj.textures| == 0
    ensures r.Ok? ==>
      var s' := r.value.0;
      var n := |s.models|;
      && |s'.models| == n + 1 && |s'.instances| == |s.instances| + 1 && |s'.descs| == |s.descs| + 1
      && s'.models[..n] == s.models && s'.instances[..|s.instances|] == s.instances && s'.descs[..|s.descs|] == s.descs
      && s'.models[n].nbIndices == WrapU32(obj.indexCount) && s'.models[n].nbVertices == WrapU32(obj.vertexCount)
      && s'.instances[|s.instances|] == ObjInstance(transform, WrapU32(n))
      && s'.descs[|s.descs|].txtOffset == WrapU32(|s.textures|)
      && DescribesModel(s'.descs[|s.descs|], s'.models[n])
      && !alloc.Issued(s'.models[n].vertexBuffer) && !alloc.Issued(s'.models[n].indexBuffer)
      && !alloc.Issued(s'.models[n].matColorBuffer) && !alloc.Issued(s'.models[n].matIndexBuffer)
      && s.textures <= s'.textures && |s'.textures| > 0
  {
    var a4 := Allocator(alloc.next + 4);
    AppendModel(s, obj, transform, alloc, CreateTextureImages(s.textures, obj.textures, a4))
  }

  /** As written, the second untextured model is fatal: the first one's
      placeholder texture makes the assertion fire. */
  lemma SecondUntexturedModelIsFatal(obj1: LoadedObj, obj2: LoadedObj, t1: Transform, t2: Transform, alloc: Allocator)
    requires |obj1.textures| == 0 && |obj2.textures| == 0
    ensures LoadModelAsWritten(EmptyScene, obj1, t1, alloc).Ok?
    ensures var (s1, a1) := LoadModelAsWritten(EmptyScene, obj1, t1, alloc).value;
            LoadModelAsWritten(s1, obj2, t2, a1).Fatal?
  {
  }

  /** With the corrected texture step, loading keeps the scene consistent as
      long as the model count still fits the uint32_t objIndex. */
  lemma LoadModelPreservesConsistency(s: SceneState, obj: LoadedObj, transform: Transform, alloc: Allocator)
    requires SceneConsistent(s)
    requires |s.models| < UINT32_MAX
    requires LoadModel(s, obj, transform, alloc).Ok?
    ensures SceneConsistent(LoadModel(s, obj, transform, alloc).value.0)
  {
    var s' := LoadModel(s, obj, transform, alloc).value.0;
    var n := |s.models|;
    forall i | 0 <= i < |s'.descs| ensures DescribesModel(s'.descs[i], s'.models[i]) {
      if i < n {
        assert s'.descs[i] == s'.descs[..n][i] && s'.models[i] == s'.models[..n][i];
      }
    }
    forall i | 0 <= i < |s'.instances| ensures s'.instances[i].objIndex == i {
      if i < n {
        assert s'.instances[i] == s'.instances[..n][i];
      }
    }
    forall i | 0 <= i < |s'.descs| ensures s'.descs[i].txtOffset <= |s'.textures| {
      if i < n {
        assert s'.descs[i] == s'.descs[..n][i];
      }
    }
  }

  /** Loading a sequence of files in order, stopping at the first failure. */
  function LoadModels(s: SceneState, objs: seq<LoadedObj>, transforms: seq<Transform>, alloc: Allocator): (r: Outcome<(SceneState, Allocator)>)
    requires |objs| == |transforms|
    decreases |objs|
  {
    if |objs| == 0 then Ok((s, alloc))
    else match LoadModel(s, objs[0], transforms[0], alloc)
      case Fatal(reason) => Fatal(reason)
      case Ok((s1, a1)) => LoadModels(s1, objs[1..], transforms[1..], a1)
  }

  /** Loading any number of untextured files into an empty scene succeeds
      and yields a consistent scene with one model per file, whose instance i
      carries the i-th transform. */
  lemma {:induction false} LoadModelsBuildsConsistentScene(s: SceneState, objs: seq<LoadedObj>, transforms: seq<Transform>, alloc: Allocator)
    requires |objs| == |transforms|
    requires SceneConsistent(s)
    requires |s.models| + |objs| <= UINT32_MAX
    requires forall i :: 0 <= i < |objs| ==> |objs[i].textures| == 0
    ensures LoadModels(s, objs, transforms, alloc).Ok?
    ensures var s' := LoadModels(s, objs, transforms, alloc).value.0;
            && SceneConsistent(s')
            && |s'.models| == |s.models| + |objs|
            && s'.instances[..|s.instances|] == s.instances
            && forall i :: 0 <= i < |objs| ==> s'.instances[|s.models| + i].transform == transforms[i]
    decreases |objs|
  {
    if |objs| > 0 {
      var (s1, a1) := LoadModel(s, objs[0], transforms[0], alloc).value;
      LoadModelPreservesConsistency(s, objs[0], transforms[0], alloc);
      var restObjs, restTransforms := objs[1..], transforms[1..];
      assert forall i :: 0 <= i < |restObjs| ==> restObjs[i] == objs[i + 1];
      LoadModelsBuildsConsistentScene(s1, restObjs, restTransforms, a1);
      assert LoadModels(s, objs, transforms, alloc) == LoadModels(s1, restObjs, restTransforms, a1);
      var s' := LoadModels(s1, restObjs, restTransforms, a1).value.0;
      var n := |s.models|;
      assert s'.instances[..n + 1] == s1.instances;
      assert s'.instances[..n] == s1.instances[..n];
      assert s'.instances[n] == s1.instances[n];
      TransformsLineUp(s'.instances, n, transforms);
    }
  }

  /** The transform of the first file sits at n, those of the rest from n + 1 on. */
  lemma TransformsLineUp(instances: seq<ObjInstance>, n: nat, transforms: seq<Transform>)
    requires 0 < |transforms| && n + |transforms| <= |instances|
    requires instances[n].transform == transforms[0]
    requires forall i :: 0 <= i < |transforms| - 1 ==> instances[n + 1 + i].transform == transforms[1..][i]
    ensures forall i :: 0 <= i < |transforms| ==> instances[n + i].transform == transforms[i]
  {
    forall i | 0 < i < |transforms| ensures instances[n + i].transform == transforms[i] {
      assert instances[n + 1 + (i - 1)].transform == transforms[1..][i - 1];
    }
  }

  // ---------------------------------------------------------------------
  // Acceleration-structure inputs.
  // ---------------------------------------------------------------------

  /** vk::AccelerationStructureGeometryKHR with triangle data. */
  datatype Geometry = Geometry(
    triangles: bool,
    opaqueGeometry: bool,
    vertexFormatR32G32B32: bool,
    vertexAddress: Handle,
    indexTypeUint32: bool,
    indexAddress: Handle,
    maxVertex: u32)

  /** vk::AccelerationStructureBuildRangeInfoKHR */
  datatype BuildRange = BuildRange(primitiveCount: u32, primitiveOffset: nat, firstVertex: nat, transformOffset: nat)

  datatype BlasInput = BlasInput(geometries: seq<Geometry>, ranges: seq<BuildRange>)

  /** ObjectToVKGeometry: a single opaque triangle geometry over the model's
      vertex and index buffers, one primitive per three indices (integer
      division), and the highest vertex index computed in uint32_t. */
  function ObjectToGeometry(model: ObjModel): (r: BlasInput)
    ensures |r.geometries| == 1 && |r.ranges| == 1
    ensures r.geometries[0].triangles && r.geometries[0].opaqueGeometry
    ensures r.geometries[0].vertexAddress == model.vertexBuffer && r.geometries[0].indexAddress == model.indexBuffer
    ensures 3 * r.ranges[0].primitiveCount <= model.nbIndices < 3 * r.ranges[0].primitiveCount + 3
    ensures model.nbVertices > 0 ==> r.geometries[0].maxVertex == model.nbVertices - 1
    ensures model.nbVertices == 0 ==> r.geometries[0].maxVertex == UINT32_MAX
    ensures r.ranges[0].primitiveOffset == 0 && r.ranges[0].firstVertex == 0 && r.ranges[0].transformOffset == 0
  {
    var g := Geometry(true, true, true, model.vertexBuffer, true, model.indexBuffer, WrapU32(model.nbVertices - 1));
    BlasInput([g], [BuildRange(model.nbIndices / 3, 0, 0, 0)])
  }

  /** CreateBottomLevelAS: one input per model, in model order. */
  method CreateBottomLevelAS(models: seq<ObjModel>) returns (allBlas: seq<BlasInput>)
    ensures |allBlas| == |models|
    ensures forall i :: 0 <= i < |models| ==> allBlas[i] == ObjectToGeometry(models[i])
  {
    allBlas := [];
    var i := 0;
    while i < |models|
      invariant 0 <= i <= |models|
      invariant |allBlas| == i
      invariant forall k :: 0 <= k < i ==> allBlas[k] == ObjectToGeometry(models[k])
    {
      allBlas := allBlas + [ObjectToGeometry(models[i])];
      i := i + 1;
    }
  }

  /** VkAccelerationStructureInstanceKHR. instanceCustomIndex is a 24-bit
      field and mask an 8-bit one. */
  datatype TlasInstance = TlasInstance(transform: Transform, customIndex: nat, mask: nat,
                                       sbtOffset: nat, cullDisable: bool, reference: Handle)

  const CUSTOM_INDEX_MODULUS: nat := 0x100_0000

  /** CreateTopLevelAS: one entry per instance, in instance order, hit-group
      offset 0, mask 0xFF, culling disabled, referencing the bottom-level
      structure of the instance's model; the custom index is the objIndex as
      stored in the 24-bit field. The builder's lookup asserts that objIndex
      names a built bottom-level structure. */
  method CreateTopLevelAS(instances: seq<ObjInstance>, blasAddresses: seq<Handle>) returns (tlas: seq<TlasInstance>)
    requires forall i :: 0 <= i < |instances| ==> instances[i].objIndex < |blasAddresses|
    ensures |tlas| == |instances|
    ensures forall i :: 0 <= i < |instances| ==>
      && tlas[i].transform == instances[i].transform
      && tlas[i].reference == blasAddresses[instances[i].objIndex]
      && tlas[i].customIndex == instances[i].objIndex % CUSTOM_INDEX_MODULUS
      && tlas[i].mask == 0xFF && tlas[i].sbtOffset == 0 && tlas[i].cullDisable
  {
    tlas := [];
    var i := 0;
    while i < |instances|
      invariant 0 <= i <= |instances|
      invariant |tlas| == i
      invariant forall k :: 0 <= k < i ==>
        && tlas[k].transform == instances[k].transform
        && tlas[k].reference == blasAddresses[instances[k].objIndex]
        && tlas[k].customIndex == instances[k].objIndex % CUSTOM_INDEX_MODULUS
        && tlas[k].mask == 0xFF && tlas[k].sbtOffset == 0 && tlas[k].cullDisable
    {
      var inst := instances[i];
      tlas := tlas + [TlasInstance(inst.transform, inst.objIndex % CUSTOM_INDEX_MODULUS, 0xFF, 0, true, blasAddresses[inst.objIndex])];
      i := i + 1;
    }
  }

  /** For a consistent scene, with one bottom-level structure built per model
      (blasAddresses[j] is model j's), entry i of the top level references
      model i's structure, and -- while fewer than 2^24 models exist -- the
      custom index a hit shader reads is i, which selects description i,
      whose addresses are model i's buffers. */
  method BuildSceneAS(s: SceneState, blasAddresses: seq<Handle>) returns (allBlas: seq<BlasInput>, tlas: seq<TlasInstance>)
    requires SceneConsistent(s)
    requires |blasAddresses| == |s.models|
    ensures |allBlas| == |s.models| && |tlas| == |s.instances|
    ensures forall i :: 0 <= i < |allBlas| ==> |allBlas[i].geometries| == 1
    ensures forall i :: 0 <= i < |tlas| ==>
      && tlas[i].reference == blasAddresses[i]
      && allBlas[i].geometries[0].vertexAddress == s.models[i].vertexBuffer
      && allBlas[i].geometries[0].indexAddress == s.models[i].indexBuffer
    ensures |s.models| <= CUSTOM_INDEX_MODULUS ==>
      forall i :: 0 <= i < |tlas| ==> tlas[i].customIndex == i && DescribesModel(s.descs[tlas[i].customIndex], s.models[i])
  {
    allBlas := CreateBottomLevelAS(s.models);
    tlas := CreateTopLevelAS(s.instances, blasAddresses);
  }
}

=== FILE: swapchain.dfy ===
/** Swapchain construction in VulkanContext::Init: the create-info assembled
    from the selection rules, and one SwapchainFrame (image plus a fresh image
    view) per swapchain image (Photon/src/Platform/Vulkan/VulkanContext.cpp,
    Photon/src/Platform/Vulkan/VulkanFrame.h). */
module Swapchain {
  import opened VkTypes
  import opened SwapchainConfig
  import opened QueueFamilies

  /** VulkanFrame.h: the per-image bundle. Fields a step has not filled yet
      hold the null handle, as a value-initialised vk:: handle does. */
  datatype SwapchainFrame = SwapchainFrame(image: Handle, imageView: Handle, frameBuffer: Handle, commandBuffer: Handle)

  /** The vk::SwapchainCreateInfoKHR fields the context sets. */
  datatype SwapchainCreateInfo = SwapchainCreateInfo(
    surface: Handle,
    minImageCount: u32,
    imageFormat: u32,
    imageColorSpace: u32,
    imageExtent: Extent2D,
    imageArrayLayers: nat,
    colorAttachmentUsage: bool,
    sharing: ImageSharing,
    preTransform: u32,
    opaqueCompositeAlpha: bool,
    presentMode: PresentMode,
    clipped: bool,
    oldSwapchain: Handle)

  /** A size brought into [lo, hi] the way std::min(hi, std::max(lo, x)) does:
      the upper bound wins when the bounds cross. */
  function Clamp(x: int, lo: int, hi: int): int {
    if hi < x then hi else if x < lo then (if lo <= hi then lo else hi) else x
  }

  /** The swapchain request built from fresh surface queries. The window size
      arrives as C ints and is converted to uint32_t for the extent rule. */
  function PlanSwapchain(surface: Handle, indices: QueueFamilyIndices, caps: SurfaceCapabilities,
                         formats: seq<SurfaceFormat>, modes: seq<PresentMode>,
                         windowWidth: int, windowHeight: int): (r: SwapchainCreateInfo)
    requires indices.IsComplete()
    requires |formats| > 0
    ensures SurfaceFormat(r.imageFormat, r.imageColorSpace) in formats
    ensures PreferredFormat in formats ==> SurfaceFormat(r.imageFormat, r.imageColorSpace) == PreferredFormat
    ensures r.presentMode == Mailbox <==> Mailbox in modes
    ensures r.presentMode == Mailbox || r.presentMode == Fifo
    ensures caps.maxImageCount != 0 ==> r.minImageCount <= caps.maxImageCount
    ensures caps.minImageCount < UINT32_MAX && caps.maxImageCount == 0 ==> r.minImageCount == caps.minImageCount + 1
    ensures caps.minImageCount < UINT32_MAX && (caps.maxImageCount == 0 || caps.minImageCount + 1 <= caps.maxImageCount) ==>
      r.minImageCount == caps.minImageCount + 1
    ensures caps.maxImageCount != 0 && caps.maxImageCount < caps.minImageCount + 1 && caps.minImageCount < UINT32_MAX ==>
      r.minImageCount == caps.maxImageCount
    ensures caps.currentExtent.width != UINT32_MAX ==> r.imageExtent == caps.currentExtent
    // When the surface leaves the extent to the application, a representable
    // window size is clamped into [min, max] per side.
    ensures caps.currentExtent.width == UINT32_MAX && 0 <= windowWidth < U32_MODULUS ==>
      r.imageExtent.width == Clamp(windowWidth, caps.minImageExtent.width, caps.maxImageExtent.width)
    ensures caps.currentExtent.width == UINT32_MAX && 0 <= windowHeight < U32_MODULUS ==>
      r.imageExtent.height == Clamp(windowHeight, caps.minImageExtent.height, caps.maxImageExtent.height)
    ensures r.sharing.mode == Concurrent <==> indices.graphicsFamily != indices.presentFamily
    ensures r.sharing.mode == Concurrent ==> r.sharing.queueFamilyIndices == UniqueIndices(indices)
    ensures r.sharing.mode == Exclusive ==> r.sharing.queueFamilyIndices == []
    ensures r.imageArrayLayers == 1 && r.colorAttachmentUsage && r.opaqueCompositeAlpha && r.clipped
    ensures r.preTransform == caps.currentTransform && r.surface == surface && r.oldSwapchain == NullHandle
  {
    var format := ChooseSurfaceFormat(formats);
    SwapchainCreateInfo(
      surface,
      ImageCount(caps),
      format.format,
      format.colorSpace,
      ChooseSwapchainExtent(WindowSizeArgument(windowWidth), WindowSizeArgument(windowHeight), caps),
      1,
      true,
      ChooseSharing(indices),
      caps.currentTransform,
      true,
      ChoosePresentMode(modes),
      true,
      NullHandle)
  }

  /** The cold-start scenario: one family doing both roles, a surface asking
      for at least one image with no maximum, only BGRA8/sRGB and only FIFO.
      The request is two images, BGRA8/sRGB, FIFO, exclusive sharing. */
  lemma ColdStartScenario(surface: Handle, extent: Extent2D, w: int, h: int)
    requires extent.width != UINT32_MAX
    ensures var r := ResolveQueueFamilies([QueueFamily(true, true)]);
      && r == Ok(QueueFamilyIndices(Some(0), Some(0)))
      && var caps := SurfaceCapabilities(1, 0, extent, extent, extent, 1);
         var info := PlanSwapchain(surface, r.value, caps, [PreferredFormat], [Fifo], w, h);
         && info.minImageCount == 2
         && SurfaceFormat(info.imageFormat, info.imageColorSpace) == PreferredFormat
         && info.presentMode == Fifo
         && info.sharing == ImageSharing(Exclusive, [])
         && info.imageExtent == extent
  {
    var fams := [QueueFamily(true, true)];
    var r := ResolveQueueFamilies(fams);
    assert Stops(fams, 0);
    ResolvedAtIsUnique(fams, r.value.graphicsFamily.value, r.value.presentFamily.value, 0, 0);
  }

  /** vk::ComponentSwizzle */
  datatype Swizzle = SwizzleIdentity | SwizzleZero | SwizzleOne | SwizzleR | SwizzleG | SwizzleB | SwizzleA

  /** The vk::ImageViewCreateInfo fields the context sets. */
  datatype ImageViewCreateInfo = ImageViewCreateInfo(
    image: Handle,
    view2D: bool,
    format: u32,
    swizzle: (Swizzle, Swizzle, Swizzle, Swizzle),
    colorAspect: bool,
    baseMipLevel: nat,
    levelCount: nat,
    baseArrayLayer: nat,
    layerCount: nat)

  /** A 2-D colour view of the whole image: identity swizzle, one mip level,
      one array layer. */
  predicate IsPlainColorView(info: ImageViewCreateInfo, image: Handle, format: u32) {
    && info.image == image
    && info.view2D
    && info.format == format
    && info.swizzle == (SwizzleIdentity, SwizzleIdentity, SwizzleIdentity, SwizzleIdentity)
    && info.colorAspect
    && info.baseMipLevel == 0 && info.levelCount == 1
    && info.baseArrayLayer == 0 && info.layerCount == 1
  }

  /** The result of building the frames: the frames, the view requests made,
      and the handle counter afterwards. */
  datatype FrameSet = FrameSet(frames: seq<SwapchainFrame>, viewInfos: seq<ImageViewCreateInfo>, alloc: Allocator)

  /** The image-view loop: one frame per swapchain image, in image order, each
      with a freshly created view of the chosen format. createImageView is not
      guarded, so a rejected call ends the process. */
  method CreateFrames(images: seq<Handle>, format: u32, alloc: Allocator, fault: Fault) returns (r: Outcome<FrameSet>)
    ensures r.Fatal? <==> fault.Some? && fault.value < |images|
    ensures r.Ok? ==>
      var fs := r.value;
      && |fs.frames| == |images| && |fs.viewInfos| == |images|
      && alloc.next <= fs.alloc.next
      && (forall i :: 0 <= i < |images| ==>
            && fs.frames[i].image == images[i]
            && IsPlainColorView(fs.viewInfos[i], images[i], format)
            && !alloc.Issued(fs.frames[i].imageView) && fs.alloc.Issued(fs.frames[i].imageView)
            && fs.frames[i].frameBuffer == NullHandle && fs.frames[i].commandBuffer == NullHandle)
      && (forall i, j :: 0 <= i < j < |images| ==> fs.frames[i].imageView != fs.frames[j].imageView)
  {
    var frames: seq<SwapchainFrame> := [];
    var infos: seq<ImageViewCreateInfo> := [];
    var a := alloc;
    var i := 0;
    while i < |images|
      invariant 0 <= i <= |images|
      invariant |frames| == i && |infos| == i
      invariant a.next == alloc.next + i
      invariant fault.None? || i <= fault.value
      invariant forall k :: 0 <= k < i ==>
        frames[k] == SwapchainFrame(images[k], Token(alloc.next + k), NullHandle, NullHandle)
      invariant forall k :: 0 <= k < i ==> IsPlainColorView(infos[k], images[k], format)
    {
      if FailsAt(fault, i) {
        return Fatal("Could not create image view");
      }
      var info := ImageViewCreateInfo(images[i], true, format,
                                      (SwizzleIdentity, SwizzleIdentity, SwizzleIdentity, SwizzleIdentity),
                                      true, 0, 1, 0, 1);
      var (view, a') := a.Fresh();
      frames := frames + [SwapchainFrame(images[i], view, NullHandle, NullHandle)];
      infos := infos + [info];
      a := a';
      i := i + 1;
    }
    return Ok(FrameSet(frames, infos, a));
  }
}

=== FILE: swapchain_config.dfy ===
/** The pure selection rules the context applies to a surface's capability
    records when it builds the swapchain: surface format, present mode,
    extent and image count (Photon/src/Platform/Vulkan/VulkanContext.cpp). */
module SwapchainConfig {
  import opened VkTypes

  /** VK_FORMAT_B8G8R8A8_UNORM */
  const FORMAT_B8G8R8A8_UNORM: u32 := 44
  /** VK_COLOR_SPACE_SRGB_NONLINEAR_KHR */
  const COLOR_SPACE_SRGB_NONLINEAR: u32 := 0

  /** vk::SurfaceFormatKHR: a (format, colour space) pair of enum codes. */
  datatype SurfaceFormat = SurfaceFormat(format: u32, colorSpace: u32)

  const PreferredFormat: SurfaceFormat := SurfaceFormat(FORMAT_B8G8R8A8_UNORM, COLOR_SPACE_SRGB_NONLINEAR)

  /** vk::PresentModeKHR; the codes are those of the Vulkan 1.3 specification.
      OtherMode carries only codes without a constructor of their own; a
      named mode is never written as OtherMode of its code. */
  datatype PresentMode = Immediate | Mailbox | Fifo | FifoRelaxed | OtherMode(code: u32)

  /** The fields of vk::SurfaceCapabilitiesKHR the context reads. */
  datatype SurfaceCapabilities = SurfaceCapabilities(
    minImageCount: u32,
    maxImageCount: u32,          // 0 means "no limit"
    currentExtent: Extent2D,     // width 0xFFFFFFFF means "chosen by the application"
    minImageExtent: Extent2D,
    maxImageExtent: Extent2D,
    currentTransform: u32)

  /** Scans the list for the preferred BGRA8 / sRGB-non-linear pair and falls
      back to the first entry. An empty list is not handled by the source
      (it reads formats[0]); the Vulkan specification guarantees at least one. */
  function ChooseSurfaceFormat(formats: seq<SurfaceFormat>): (r: SurfaceFormat)
    requires |formats| > 0
    ensures r in formats
    ensures PreferredFormat in formats ==> r == PreferredFormat
    ensures PreferredFormat !in formats ==> r == formats[0]
  {
    if ScanForPreferred(formats) then PreferredFormat else formats[0]
  }

  /** The loop of ChooseSurfaceFormat: does any entry match the preferred pair? */
  function ScanForPreferred(formats: seq<SurfaceFormat>): (found: bool)
    ensures found <==> PreferredFormat in formats
  {
    if |formats| == 0 then false
    else if formats[0].format == FORMAT_B8G8R8A8_UNORM && formats[0].colorSpace == COLOR_SPACE_SRGB_NONLINEAR then true
    else
      assert formats == [formats[0]] + formats[1..];
      ScanForPreferred(formats[1..])
  }

  /** Returns Mailbox when it is listed and FIFO otherwise -- FIFO even when
      the list does not contain it, since every surface supports it. */
  function ChoosePresentMode(modes: seq<PresentMode>): (r: PresentMode)
    ensures Mailbox in modes <==> r == Mailbox
    ensures Mailbox !in modes <==> r == Fifo
  {
    if |modes| == 0 then Fifo
    else if modes[0] == Mailbox then Mailbox
    else
      assert modes == [modes[0]] + modes[1..];
      ChoosePresentMode(modes[1..])
  }

  /** The current extent when the surface fixes it, otherwise the window size
      clamped per dimension as min(maxExt, max(minExt, size)). */
  function ChooseSwapchainExtent(width: u32, height: u32, caps: SurfaceCapabilities): (r: Extent2D)
    ensures caps.currentExtent.width != UINT32_MAX ==> r == caps.currentExtent
    ensures caps.currentExtent.width == UINT32_MAX ==>
      && r.width <= caps.maxImageExtent.width
      && r.height <= caps.maxImageExtent.height
      && (caps.minImageExtent.width <= caps.maxImageExtent.width ==> caps.minImageExtent.width <= r.width)
      && (caps.minImageExtent.height <= caps.maxImageExtent.height ==> caps.minImageExtent.height <= r.height)
      && (caps.minImageExtent.width <= width <= caps.maxImageExtent.width ==> r.width == width)
      && (caps.minImageExtent.height <= height <= caps.maxImageExtent.height ==> r.height == height)
    // Out of range: a size above the maximum becomes the maximum; a size below
    // the minimum becomes the minimum, or the maximum when that is smaller.
    ensures caps.currentExtent.width == UINT32_MAX ==>
      && (caps.maxImageExtent.width < width ==> r.width == caps.maxImageExtent.width)
      && (caps.maxImageExtent.height < height ==> r.height == caps.maxImageExtent.height)
      && (width < caps.minImageExtent.width ==>
            r.width == if caps.minImageExtent.width <= caps.maxImageExtent.width
                       then caps.minImageExtent.width else caps.maxImageExtent.width)
      && (height < caps.minImageExtent.height ==>
            r.height == if caps.minImageExtent.height <= caps.maxImageExtent.height
                        then caps.minImageExtent.height else caps.maxImageExtent.height)
  {
    if caps.currentExtent.width != UINT32_MAX then caps.currentExtent
    else
      Extent2D(MinU32(caps.maxImageExtent.width, MaxU32(caps.minImageExtent.width, width)),
               MinU32(caps.maxImageExtent.height, MaxU32(caps.minImageExtent.height, height)))
  }

  /** The window size glfwGetWindowSize reports is a C int; passing it where a
      uint32_t is expected converts it modulo 2^32. */
  function WindowSizeArgument(size: int): (r: u32)
    ensures 0 <= size ==> size < U32_MODULUS ==> r == size
    ensures size < 0 && -U32_MODULUS <= size ==> r == size + U32_MODULUS
  {
    WrapU32(size)
  }

  /** One more image than the minimum, capped by the maximum unless the maximum
      is 0 ("no limit"); the addition is done in uint32_t and wraps. */
  function ImageCount(caps: SurfaceCapabilities): (r: u32)
    ensures caps.minImageCount < UINT32_MAX && caps.maxImageCount == 0 ==> r == caps.minImageCount + 1
    ensures caps.maxImageCount != 0 ==> r <= caps.maxImageCount
    ensures caps.minImageCount < UINT32_MAX && caps.maxImageCount != 0 ==>
      r == caps.maxImageCount || r == caps.minImageCount + 1
    ensures caps.minImageCount < UINT32_MAX && caps.minImageCount <= caps.maxImageCount ==>
      caps.minImageCount <= r
    ensures caps.minImageCount == UINT32_MAX ==> r == 0
    // The exact value: min + 1 unless a nonzero maximum is below it, then the maximum.
    ensures caps.minImageCount < UINT32_MAX && (caps.maxImageCount == 0 || caps.minImageCount + 1 <= caps.maxImageCount) ==>
      r == caps.minImageCount + 1
    ensures caps.maxImageCount != 0 && caps.maxImageCount < caps.minImageCount + 1 && caps.minImageCount < UINT32_MAX ==>
      r == caps.maxImageCount
  {
    MinU32(if caps.maxImageCount == 0 then UINT32_MAX else caps.maxImageCount,
           WrapU32(caps.minImageCount + 1))
  }

  /** Whatever order the surface lists its formats and modes in, the choice is
      the same: the selection is a preference, not a first-come rule. */
  lemma SelectionIgnoresListOrder(f1: seq<SurfaceFormat>, f2: seq<SurfaceFormat>,
                                  m1: seq<PresentMode>, m2: seq<PresentMode>)
    requires |f1| > 0 && |f2| > 0
    requires multiset(f1) == multiset(f2) && multiset(m1) == multiset(m2)
    requires PreferredFormat in f1
    ensures ChooseSurfaceFormat(f1) == ChooseSurfaceFormat(f2)
    ensures ChoosePresentMode(m1) == ChoosePresentMode(m2)
  {
    assert PreferredFormat in multiset(f1);
    assert PreferredFormat in f2;
    assert Mailbox in m1 <==> Mailbox in multiset(m1);
    assert Mailbox in m2 <==> Mailbox in multiset(m2);
  }
}

=== FILE: sync_utils.dfy ===
/** Creation of the synchronisation primitives the frame loop uses
    (Photon/src/Platform/Vulkan/VulkanSyncUtils.cpp). */
module SyncUtils {
  import opened VkTypes

  /** A semaphore as created: its handle and whether it starts signalled. */
  datatype Semaphore = Semaphore(handle: Handle, signalled: bool)

  /** A fence as created: its handle and whether it starts signalled. */
  datatype Fence = Fence(handle: Handle, signalled: bool)

  /** MakeSemaphore: default (empty) create flags, so the semaphore starts
      unsignalled; a rejected creation is a fatal assertion. */
  function MakeSemaphore(alloc: Allocator, rejected: bool): (r: Outcome<(Semaphore, Allocator)>)
    ensures r.Fatal? <==> rejected
    ensures r.Ok? ==> !r.value.0.signalled
    ensures r.Ok? ==> !alloc.Issued(r.value.0.handle) && r.value.1.Issued(r.value.0.handle)
                      && r.value.0.handle.Token? && alloc.next < r.value.1.next
  {
    if rejected then Fatal("Could not create semaphore")
    else
      var (h, a) := alloc.Fresh();
      Ok((Semaphore(h, false), a))
  }

  /** MakeFence: created with the signalled flag, so the first wait on it
      returns at once; a rejected creation is a fatal assertion. */
  function MakeFence(alloc: Allocator, rejected: bool): (r: Outcome<(Fence, Allocator)>)
    ensures r.Fatal? <==> rejected
    ensures r.Ok? ==> r.value.0.signalled
    ensures r.Ok? ==> !alloc.Issued(r.value.0.handle) && r.value.1.Issued(r.value.0.handle)
                      && r.value.0.handle.Token? && alloc.next < r.value.1.next
  {
    if rejected then Fatal("Could not create fence")
    else
      var (h, a) := alloc.Fresh();
      Ok((Fence(h, true), a))
  }

  /** The context's synchronisation set: the in-flight fence and the
      image-available and render-finished semaphores. */
  datatype SyncObjects = SyncObjects(inFlight: Fence, imageAvailable: Semaphore, renderFinished: Semaphore, alloc: Allocator)

  /** The three creation calls at the end of VulkanContext::Init, in order:
      fence (call 0), image-available (call 1), render-finished (call 2). */
  function MakeSyncObjects(alloc: Allocator, fault: Fault): (r: Outcome<SyncObjects>)
    ensures r.Fatal? <==> fault.Some? && fault.value < 3
    ensures r.Ok? ==>
      var s := r.value;
      && s.inFlight.signalled && !s.imageAvailable.signalled && !s.renderFinished.signalled
      && s.inFlight.handle != s.imageAvailable.handle
      && s.inFlight.handle != s.renderFinished.handle
      && s.imageAvailable.handle != s.renderFinished.handle
      && !alloc.Issued(s.inFlight.handle) && !alloc.Issued(s.imageAvailable.handle)
      && !alloc.Issued(s.renderFinished.handle)
  {
    match MakeFence(alloc, FailsAt(fault, 0))
    case Fatal(e) => Fatal(e)
    case Ok((fence, a1)) =>
      match MakeSemaphore(a1, FailsAt(fault, 1))
      case Fatal(e) => Fatal(e)
      case Ok((imageAvailable, a2)) =>
        match MakeSemaphore(a2, FailsAt(fault, 2))
        case Fatal(e) => Fatal(e)
        case Ok((renderFinished, a3)) =>
          Ok(SyncObjects(fence, imageAvailable, renderFinished, a3))
  }
}

=== FILE: teardown.dfy ===
/** The destructor of VulkanContext as a trace of destroy calls
    (Photon/src/Platform/Vulkan/VulkanContext.cpp). */
module Teardown {
  import opened VkTypes
  import opened Swapchain
  import opened FrameLoop

  datatype TeardownOp =
    | DeviceWaitIdle
    | DestroyFence(handle: Handle)
    | DestroySemaphore(handle: Handle)
    | DestroyCommandPool(handle: Handle)
    | DestroyPipeline(handle: Handle)
    | DestroyRenderPass(handle: Handle)
    | DestroyImageView(handle: Handle)
    | DestroyFramebuffer(handle: Handle)
    | DestroySwapchain(handle: Handle)
    | DestroyDevice(handle: Handle)
    | DestroyRtBuilder            // m_RTBuilder.destroy(): frees the acceleration structures through the device
    | ApiShutdown                 // VulkanAPI::Shutdown, whose body is empty

  /** Calls that need the device to be alive. */
  predicate UsesDevice(op: TeardownOp) {
    !op.DeviceWaitIdle? && !op.DestroyDevice? && !op.ApiShutdown?
  }

  /** The per-frame loop: each frame's image view, then its framebuffer. */
  function FrameTeardown(frames: seq<SwapchainFrame>): (t: seq<TeardownOp>)
    ensures |t| == 2 * |frames|
    ensures forall i :: 0 <= i < |frames| ==>
              t[2 * i] == DestroyImageView(frames[i].imageView) && t[2 * i + 1] == DestroyFramebuffer(frames[i].frameBuffer)
    ensures forall k :: 0 <= k < |t| ==> t[k].DestroyImageView? || t[k].DestroyFramebuffer?
    decreases |frames|
  {
    if |frames| == 0 then []
    else
      var rest := FrameTeardown(frames[1..]);
      var t := [DestroyImageView(frames[0].imageView), DestroyFramebuffer(frames[0].frameBuffer)] + rest;
      assert forall i :: 0 <= i < |frames| - 1 ==> frames[1..][i] == frames[i + 1];
      assert forall k :: 0 <= k < |rest| ==> t[k + 2] == rest[k];
      t
  }

  /** Everything the destructor destroys before the device goes, in order. */
  function DeviceChildrenTeardown(ctx: RenderContext): (t: seq<TeardownOp>)
    ensures forall k :: 0 <= k < |t| ==> UsesDevice(t[k]) && !t[k].DestroyRtBuilder?
    ensures |t| == 9 + 2 * |ctx.frames|
  {
    [DestroyFence(ctx.inFlightFence),
     DestroySemaphore(ctx.imageAvailable),
     DestroySemaphore(ctx.renderFinished),
     DestroyCommandPool(ctx.commandPool),
     DestroyPipeline(ctx.pipeline),
     DestroyRenderPass(ctx.renderPass),
     DestroyPipeline(ctx.rtPipeline),
     DestroyRenderPass(ctx.rtRenderPass)]
    + FrameTeardown(ctx.frames)
    + [DestroySwapchain(ctx.swapchain)]
  }

  /** ~VulkanContext as written: wait for the device to go idle, destroy the
      synchronisation objects, the pool, both pipelines and render passes,
      each frame's view and framebuffer, the swapchain and the device -- and
      only then the ray-tracing builder. */
  function DestroyAsWritten(ctx: RenderContext): (t: seq<TeardownOp>)
    ensures |t| == 13 + 2 * |ctx.frames|
    ensures t[0] == DeviceWaitIdle && forall k :: 0 < k < |t| ==> t[k] != DeviceWaitIdle
    ensures t[|t| - 3] == DestroyDevice(ctx.device)
    ensures t[|t| - 2] == DestroyRtBuilder
  {
    var children := DeviceChildrenTeardown(ctx);
    var t := [DeviceWaitIdle] + children + [DestroyDevice(ctx.device), DestroyRtBuilder, ApiShutdown];
    assert forall k :: 1 <= k <= |children| ==> t[k] == children[k - 1];
    t
  }

  /** The order Vulkan requires: the builder's acceleration structures go
      before the device that owns them. */
  function Destroy(ctx: RenderContext): (t: seq<TeardownOp>)
    ensures |t| == 13 + 2 * |ctx.frames|
    ensures t[0] == DeviceWaitIdle && forall k :: 0 < k < |t| ==> t[k] != DeviceWaitIdle
    ensures t[|t| - 2] == DestroyDevice(ctx.device)
  {
    var children := DeviceChildrenTeardown(ctx);
    var t := [DeviceWaitIdle] + children + [DestroyRtBuilder, DestroyDevice(ctx.device), ApiShutdown];
    assert forall k :: 1 <= k <= |children| ==> t[k] == children[k - 1];
    t
  }

  /** The position of the device's destruction in a trace, if any. */
  predicate DeviceDestroyedAt(t: seq<TeardownOp>, d: nat) {
    d < |t| && t[d].DestroyDevice?
  }

  /** Every call that needs the device comes after the idle wait and before
      the device is destroyed. */
  predicate DeviceOutlivesChildren(t: seq<TeardownOp>) {
    forall k, d :: 0 <= k < |t| && 0 <= d < |t| && DeviceDestroyedAt(t, d) && UsesDevice(t[k]) ==> 0 < k < d
  }

  /** As written, the builder is destroyed after the device: a call that
      needs the device happens once it is gone. */
  lemma RtBuilderOutlivesDevice(ctx: RenderContext)
    ensures var t := DestroyAsWritten(ctx);
            && DeviceDestroyedAt(t, |t| - 3)
            && UsesDevice(t[|t| - 2])
            && !DeviceOutlivesChildren(t)
  {
    var t := DestroyAsWritten(ctx);
    assert DeviceDestroyedAt(t, |t| - 3) && UsesDevice(t[|t| - 2]);
  }

  /** With the builder moved before the device, every call that needs the
      device runs between the idle wait and the device's destruction, and the
      device is destroyed exactly once. */
  lemma DestroyKeepsDeviceAlive(ctx: RenderContext)
    ensures DeviceOutlivesChildren(Destroy(ctx))
    ensures forall d :: DeviceDestroyedAt(Destroy(ctx), d) <==> d == |Destroy(ctx)| - 2
  {
    var t := Destroy(ctx);
    var children := DeviceChildrenTeardown(ctx);
    assert t == [DeviceWaitIdle] + children + [DestroyRtBuilder, DestroyDevice(ctx.device), ApiShutdown];
    assert forall k :: 1 <= k <= |children| ==> t[k] == children[k - 1];
  }

  /** The destructor destroys each synchronisation object, the pool, both
      pipelines and render passes, every frame's view and framebuffer (view
      first, frames in order), the swapchain and the device. */
  lemma DestroyCoversContext(ctx: RenderContext)
    ensures var t := Destroy(ctx);
      && t[1] == DestroyFence(ctx.inFlightFence)
      && t[2] == DestroySemaphore(ctx.imageAvailable)
      && t[3] == DestroySemaphore(ctx.renderFinished)
      && t[4] == DestroyCommandPool(ctx.commandPool)
      && t[5] == DestroyPipeline(ctx.pipeline) && t[6] == DestroyRenderPass(ctx.renderPass)
      && t[7] == DestroyPipeline(ctx.rtPipeline) && t[8] == DestroyRenderPass(ctx.rtRenderPass)
      && (forall i :: 0 <= i < |ctx.frames| ==>
            t[9 + 2 * i] == DestroyImageView(ctx.frames[i].imageView)
            && t[10 + 2 * i] == DestroyFramebuffer(ctx.frames[i].frameBuffer))
      && t[9 + 2 * |ctx.frames|] == DestroySwapchain(ctx.swapchain)
      && t[|t| - 2] == DestroyDevice(ctx.device)
  {
    var t := Destroy(ctx);
    var children := DeviceChildrenTeardown(ctx);
    var frames := FrameTeardown(ctx.frames);
    assert t == [DeviceWaitIdle] + children + [DestroyRtBuilder, DestroyDevice(ctx.device), ApiShutdown];
    assert forall k :: 0 <= k < |children| ==> t[k + 1] == children[k];
    assert forall k :: 0 <= k < |frames| ==> children[k + 8] == frames[k];
  }

  /** The corrected order only moves the builder: both traces destroy the
      same objects. */
  lemma DestroyOnlyReorders(ctx: RenderContext)
    ensures multiset(Destroy(ctx)) == multiset(DestroyAsWritten(ctx))
  {
    var head := [DeviceWaitIdle] + DeviceChildrenTeardown(ctx);
    var x := [DestroyRtBuilder, DestroyDevice(ctx.device), ApiShutdown];
    var y := [DestroyDevice(ctx.device), DestroyRtBuilder, ApiShutdown];
    assert Destroy(ctx) == head + x;
    assert DestroyAsWritten(ctx) == head + y;
    assert multiset(x) == multiset(y) by {
      assert x == [x[0]] + [x[1]] + [x[2]] && y == [x[1]] + [x[0]] + [x[2]];
    }
    assert multiset(head + x) == multiset(head) + multiset(x);
    assert multiset(head + y) == multiset(head) + multiset(y);
  }
}

=== FILE: vk_types.dfy ===
/** Value types shared by every part of the model: opaque driver handles, a
    counter that hands out fresh ones, 32-bit unsigned arithmetic, the 2-D
    extent record, and the outcome of a step that may hit a fatal assertion. */
module VkTypes {

  /** The conventional Some/None wrapper (the source's std::optional). */
  datatype Option<T> = None | Some(value: T)

  /** A step either produces a value or stops the process at a fatal
      assertion, carrying the logged reason. */
  datatype Outcome<T> = Ok(value: T) | Fatal(reason: string)

  /** An opaque Vulkan handle. `NullHandle` is VK_NULL_HANDLE. */
  datatype Handle = NullHandle | Token(id: nat)

  /** Hands out handles that no earlier call has returned: the driver's
      creation calls are modelled as drawing from this counter. */
  datatype Allocator = Allocator(next: nat) {

    /** True of every handle this allocator (or an earlier state of it) issued. */
    predicate Issued(h: Handle) {
      h.Token? && h.id < next
    }

    function Fresh(): (r: (Handle, Allocator))
      ensures r.0.Token? && !Issued(r.0) && r.1.Issued(r.0)
      ensures forall h :: Issued(h) ==> r.1.Issued(h)
      ensures r.1.next == next + 1
    {
      (Token(next), Allocator(next + 1))
    }
  }

  /** The index of the first driver call (counting from zero, in the order the
      operation issues them) that the driver rejects; None when all succeed. */
  type Fault = Option<nat>

  predicate FailsAt(fault: Fault, call: nat) {
    fault == Some(call)
  }

  const U32_MODULUS: int := 0x1_0000_0000
  const UINT32_MAX: int := 0xFFFF_FFFF

  type u32 = x: int | 0 <= x < 0x1_0000_0000

  /** The value a C/C++ conversion to uint32_t produces: reduction modulo 2^32
      (Dafny's % is Euclidean, so this is also right for negative inputs). */
  function WrapU32(x: int): (r: u32)
    ensures 0 <= x < U32_MODULUS ==> r == x
    ensures (r - x) % U32_MODULUS == 0
  {
    x % U32_MODULUS
  }

  function MinU32(a: u32, b: u32): u32 {
    if a <= b then a else b
  }

  function MaxU32(a: u32, b: u32): u32 {
    if a >= b then a else b
  }

  /** vk::Extent2D */
  datatype Extent2D = Extent2D(width: u32, height: u32)
}

=== FILE: vulkan_api.dfy ===
/** The process-wide Vulkan set-up: instance extension/layer support checks,
    device extension checks, physical-device selection, the idempotent Init,
    and the validation-message callback (Photon/src/Platform/Vulkan/VulkanAPI.cpp). */
module VulkanApi {
  import opened VkTypes

  const VALIDATION_LAYER: string := "VK_LAYER_KHRONOS_validation"
  const DEBUG_UTILS_EXTENSION: string := "VK_EXT_debug_utils"
  const SWAPCHAIN_EXTENSION: string := "VK_KHR_swapchain"

  /** The inner strcmp loop: scans the supported list and stops at the first
      entry equal to the requested name. */
  function Found(name: string, available: seq<string>): (r: bool)
    ensures r <==> name in available
  {
    if |available| == 0 then false
    else if available[0] == name then true
    else
      assert available == [available[0]] + available[1..];
      Found(name, available[1..])
  }

  /** The outer loop: returns false at the first requested name not found. */
  function AllFound(requested: seq<string>, available: seq<string>): (r: bool)
    ensures r <==> forall i :: 0 <= i < |requested| ==> requested[i] in available
  {
    if |requested| == 0 then true
    else if !Found(requested[0], available) then false
    else
      assert forall i :: 1 <= i < |requested| ==> requested[i] == requested[1..][i - 1];
      AllFound(requested[1..], available)
  }

  /** Instance-level support check: every requested extension and every
      requested layer must be among those the implementation enumerates. */
  function Supported(extensions: seq<string>, layers: seq<string>,
                     supportedExtensions: seq<string>, supportedLayers: seq<string>): (r: bool)
    ensures r <==> (forall e :: e in extensions ==> e in supportedExtensions)
                   && (forall l :: l in layers ==> l in supportedLayers)
    ensures |extensions| == 0 && |layers| == 0 ==> r
  {
    AllFound(extensions, supportedExtensions) && AllFound(layers, supportedLayers)
  }

  /** The std::set the device check builds from the enumerated extensions. */
  function NameSet(names: seq<string>): set<string> {
    set n | n in names
  }

  /** Membership of each requested name in the set, in request order. */
  function AllInSet(requested: seq<string>, names: set<string>): (r: bool)
    ensures r <==> forall i :: 0 <= i < |requested| ==> requested[i] in names
  {
    if |requested| == 0 then true
    else if requested[0] !in names then false
    else
      assert forall i :: 1 <= i < |requested| ==> requested[i] == requested[1..][i - 1];
      AllInSet(requested[1..], names)
  }

  /** A device supports the request when the requested names form a subset of
      its extension names. */
  function CheckDeviceExtensionSupport(deviceExtensions: seq<string>, requested: seq<string>): (r: bool)
    ensures r <==> NameSet(requested) <= NameSet(deviceExtensions)
  {
    AllInSet(requested, NameSet(deviceExtensions))
  }

  /** Repeated or reordered entries in the device's list change nothing. */
  lemma DeviceCheckDependsOnlyOnNames(a: seq<string>, b: seq<string>, requested: seq<string>)
    requires NameSet(a) == NameSet(b)
    ensures CheckDeviceExtensionSupport(a, requested) == CheckDeviceExtensionSupport(b, requested)
  {
  }

  /** An enumerated physical device: its handle and its extension names. */
  datatype PhysicalDevice = PhysicalDevice(handle: Handle, extensions: seq<string>)

  predicate IsSuitable(device: PhysicalDevice, requested: seq<string>) {
    CheckDeviceExtensionSupport(device.extensions, requested)
  }

  /** The selection loop: the index of the first suitable device, if any. */
  function FirstSuitable(devices: seq<PhysicalDevice>, requested: seq<string>): (r: Option<nat>)
    ensures r.Some? ==> r.value < |devices| && IsSuitable(devices[r.value], requested)
                        && forall j :: 0 <= j < r.value ==> !IsSuitable(devices[j], requested)
    ensures r.None? <==> forall j :: 0 <= j < |devices| ==> !IsSuitable(devices[j], requested)
  {
    if |devices| == 0 then None
    else if IsSuitable(devices[0], requested) then Some(0)
    else
      match FirstSuitable(devices[1..], requested)
      case None =>
        assert forall j :: 1 <= j < |devices| ==> devices[j] == devices[1..][j - 1];
        None
      case Some(i) =>
        assert forall j :: 1 <= j < i + 1 ==> devices[j] == devices[1..][j - 1];
        Some(i + 1)
  }

  /** What the environment answers during Init: the build type, the
      extensions the window system requires, what the implementation
      supports, whether createInstance rejects the request, and the devices. */
  datatype Environment = Environment(
    debugBuild: bool,
    windowExtensions: seq<string>,
    supportedExtensions: seq<string>,
    supportedLayers: seq<string>,
    instanceRejected: bool,
    devices: seq<PhysicalDevice>)

  /** The static members of VulkanAPI. */
  datatype ApiState = ApiState(
    initialized: bool,
    instance: Handle,
    debugMessenger: Handle,
    instanceExtensions: seq<string>,
    layers: seq<string>,
    deviceExtensions: seq<string>,
    physicalDevice: Handle)

  const InitialApiState: ApiState := ApiState(false, NullHandle, NullHandle, [], [], [], NullHandle)

  /** The instance extensions Init requests. */
  function RequestedExtensions(env: Environment): seq<string> {
    env.windowExtensions + (if env.debugBuild then [DEBUG_UTILS_EXTENSION] else [])
  }

  /** The validation layer is appended to the stored layers in debug builds only. */
  function LayersAfterInit(s: ApiState, env: Environment): (r: seq<string>)
    ensures VALIDATION_LAYER in r <==> VALIDATION_LAYER in s.layers || env.debugBuild
  {
    s.layers + (if env.debugBuild then [VALIDATION_LAYER] else [])
  }

  /** VulkanAPI::Init. A second call returns at once. A first call asserts
      that the requested extensions and layers are supported and that the
      instance is created, creates the debug messenger (in every build type),
      appends VK_KHR_swapchain to the device extensions and keeps the first
      suitable device -- or the null handle, with no assertion, when none is. */
  function Init(s: ApiState, env: Environment, alloc: Allocator): (r: Outcome<(ApiState, Allocator)>)
    ensures s.initialized ==> r == Ok((s, alloc))
    ensures !s.initialized ==>
      (r.Ok? <==> Supported(RequestedExtensions(env), LayersAfterInit(s, env), env.supportedExtensions, env.supportedLayers)
                  && !env.instanceRejected)
    ensures r.Ok? ==> r.value.0.initialized
    ensures r.Ok? && !s.initialized ==>
      var s' := r.value.0;
      && s'.layers == LayersAfterInit(s, env)
      && s'.deviceExtensions == s.deviceExtensions + [SWAPCHAIN_EXTENSION]
      && s'.instanceExtensions == RequestedExtensions(env)
      && !alloc.Issued(s'.instance) && s'.instance.Token?
      && (match FirstSuitable(env.devices, s'.deviceExtensions)
          case Some(i) => s'.physicalDevice == env.devices[i].handle
          case None => s'.physicalDevice == NullHandle)
  {
    if s.initialized then Ok((s, alloc))
    else
      var extensions := RequestedExtensions(env);
      var layers := LayersAfterInit(s, env);
      if !Supported(extensions, layers, env.supportedExtensions, env.supportedLayers) then
        Fatal("Extensions not supported")
      else if env.instanceRejected then
        Fatal("Could not create Vulkan instance")
      else
        var (instance, a1) := alloc.Fresh();
        var (messenger, a2) := a1.Fresh();
        var deviceExtensions := s.deviceExtensions + [SWAPCHAIN_EXTENSION];
        var physical := match FirstSuitable(env.devices, deviceExtensions)
                        case Some(i) => env.devices[i].handle
                        case None => NullHandle;
        Ok((ApiState(true, instance, messenger, extensions, layers, deviceExtensions, physical), a2))
  }

  /** Init is idempotent: once it has succeeded, any later call -- whatever the
      environment then answers -- leaves the state exactly as it was, so the
      layer and device-extension lists are never appended twice. */
  lemma InitIsIdempotent(s: ApiState, env: Environment, alloc: Allocator, env2: Environment, alloc2: Allocator)
    requires Init(s, env, alloc).Ok?
    ensures Init(Init(s, env, alloc).value.0, env2, alloc2) == Ok((Init(s, env, alloc).value.0, alloc2))
  {
  }

  /** From the program's initial state, Init requests exactly VK_KHR_swapchain
      of a device, keeps the first enumerated device whose extension set holds
      it, and enables the validation layer exactly in debug builds. */
  lemma FirstInitSelectsFirstSwapchainDevice(env: Environment, alloc: Allocator)
    requires Init(InitialApiState, env, alloc).Ok?
    ensures var s := Init(InitialApiState, env, alloc).value.0;
      && s.deviceExtensions == [SWAPCHAIN_EXTENSION]
      && s.layers == (if env.debugBuild then [VALIDATION_LAYER] else [])
      && ((forall j :: 0 <= j < |env.devices| ==> SWAPCHAIN_EXTENSION !in env.devices[j].extensions)
          ==> s.physicalDevice == NullHandle)
      && (forall i :: 0 <= i < |env.devices| && SWAPCHAIN_EXTENSION in env.devices[i].extensions
                      && (forall j :: 0 <= j < i ==> SWAPCHAIN_EXTENSION !in env.devices[j].extensions)
                      ==> s.physicalDevice == env.devices[i].handle)
  {
    var s := Init(InitialApiState, env, alloc).value.0;
    var req := [SWAPCHAIN_EXTENSION];
    assert NameSet(req) == {SWAPCHAIN_EXTENSION};
    forall d: PhysicalDevice ensures IsSuitable(d, req) <==> SWAPCHAIN_EXTENSION in d.extensions {
      assert SWAPCHAIN_EXTENSION in d.extensions <==> SWAPCHAIN_EXTENSION in NameSet(d.extensions);
    }
  }

  /** VkDebugUtilsMessageSeverityFlagBitsEXT values. */
  const SEVERITY_VERBOSE: u32 := 0x1
  const SEVERITY_INFO: u32 := 0x10
  const SEVERITY_WARNING: u32 := 0x100
  const SEVERITY_ERROR: u32 := 0x1000

  /** The severities the messenger is created to report. */
  const MessengerSeverities: set<u32> := {SEVERITY_WARNING, SEVERITY_ERROR}

  const VK_FALSE: u32 := 0

  datatype LogLevel = Trace | Info | Warn | Error

  /** The validation callback logs at a level chosen by severity and always
      returns VK_FALSE, so the call that triggered it is never aborted. */
  function DebugCallback(severity: u32): (r: (LogLevel, u32))
    ensures r.1 == VK_FALSE
    ensures r.0 == Error <==> severity == SEVERITY_ERROR
    ensures r.0 == Warn <==> severity == SEVERITY_WARNING
    ensures r.0 == Info <==> severity == SEVERITY_INFO
    ensures r.0 == Trace <==> severity !in {SEVERITY_ERROR, SEVERITY_WARNING, SEVERITY_INFO}
  {
    if severity == SEVERITY_ERROR then (Error, VK_FALSE)
    else if severity == SEVERITY_WARNING then (Warn, VK_FALSE)
    else if severity == SEVERITY_INFO then (Info, VK_FALSE)
    else (Trace, VK_FALSE)
  }

  /** Every message the messenger is registered for is logged as a warning or
      an error, never escalated to an abort. */
  lemma MessengerLogsWarningsAndErrors(severity: u32)
    requires severity in MessengerSeverities
    ensures DebugCallback(severity).0 in {Warn, Error}
    ensures DebugCallback(severity).1 == VK_FALSE
  {
  }
}

=== FILE: windows_window.dfy ===
/** The older, window-owned Vulkan set-up and the GLFW callbacks of
    WindowsWindow (Photon/src/Platform/Windows/WindowsWindow.cpp): device
    selection, queue selection and the logical-device request of InitVulkan,
    the action-to-event mapping of the key, mouse, resize and close callbacks,
    and the vsync flag. The device extension check is the same algorithm as
    VulkanAPI's and is reused from VulkanApi. */
module WindowsWindow {
  import opened VkTypes
  import opened VulkanApi
  import opened QueueFamilies

  /** The window's own `supported`: the same two nested scans as VulkanAPI's,
      so every requested extension and every requested layer must be listed. */
  function LegacySupported(extensions: seq<string>, layers: seq<string>,
                           supportedExtensions: seq<string>, supportedLayers: seq<string>): (r: bool)
    ensures r <==> (forall i :: 0 <= i < |extensions| ==> extensions[i] in supportedExtensions)
                   && (forall i :: 0 <= i < |layers| ==> layers[i] in supportedLayers)
  {
    AllFound(extensions, supportedExtensions) && AllFound(layers, supportedLayers)
  }

  /** The fixed request of the window's IsSuitable. */
  const LegacyDeviceRequest: seq<string> := [SWAPCHAIN_EXTENSION]

  /** IsSuitable: the device's extension set holds VK_KHR_swapchain. */
  function LegacyIsSuitable(device: PhysicalDevice): (r: bool)
    ensures r <==> SWAPCHAIN_EXTENSION in device.extensions
  {
    assert NameSet(LegacyDeviceRequest) == {SWAPCHAIN_EXTENSION};
    assert SWAPCHAIN_EXTENSION in device.extensions <==> SWAPCHAIN_EXTENSION in NameSet(device.extensions);
    CheckDeviceExtensionSupport(device.extensions, LegacyDeviceRequest)
  }

  /** The queue loop of InitVulkan from index i on: the first graphics family
      sets both roles, which completes the indices and ends the loop. */
  function FirstGraphicsFamily(families: seq<QueueFamily>, i: nat): (r: Option<nat>)
    requires i <= |families|
    decreases |families| - i
    ensures r.Some? ==> i <= r.value < |families| && families[r.value].graphics
                        && forall j :: i <= j < r.value ==> !families[j].graphics
    ensures r.None? <==> forall j :: i <= j < |families| ==> !families[j].graphics
  {
    if i == |families| then None
    else if families[i].graphics then Some(i)
    else FirstGraphicsFamily(families, i + 1)
  }

  /** Queue selection of InitVulkan: both roles go to the first graphics
      family, whether or not it can present; with no graphics family the
      completeness assertion fires. */
  function LegacyQueueSelection(families: seq<QueueFamily>): (r: Outcome<QueueFamilyIndices>)
    ensures r.Fatal? <==> forall j :: 0 <= j < |families| ==> !families[j].graphics
    ensures r.Ok? ==>
      && r.value.IsComplete()
      && r.value.graphicsFamily == r.value.presentFamily
      && var g := r.value.graphicsFamily.value;
         && g < |families| && families[g].graphics
         && forall j :: 0 <= j < g ==> !families[j].graphics
  {
    match FirstGraphicsFamily(families, 0)
    case None => Fatal("Not all queue families have been found")
    case Some(g) => Ok(QueueFamilyIndices(Some(g), Some(g)))
  }

  /** The window's selection ignores presentation support: a device whose
      only family draws but cannot present is accepted, where the context's
      resolution stops at its assertion. */
  lemma LegacyQueueIgnoresPresentSupport()
    ensures LegacyQueueSelection([QueueFamily(true, false)]) == Ok(QueueFamilyIndices(Some(0), Some(0)))
    ensures ResolveQueueFamilies([QueueFamily(true, false)]).Fatal?
  {
  }

  /** When family 0 both draws and presents, the window and the context
      resolve to the same indices. */
  lemma LegacyAgreesWhenFirstFamilyDoesBoth(families: seq<QueueFamily>)
    requires |families| > 0 && families[0].graphics && families[0].presentSupport
    ensures LegacyQueueSelection(families) == ResolveQueueFamilies(families)
    ensures LegacyQueueSelection(families) == Ok(QueueFamilyIndices(Some(0), Some(0)))
  {
    var r := ResolveQueueFamilies(families);
    assert Stops(families, 0);
    ResolvedAtIsUnique(families, r.value.graphicsFamily.value, r.value.presentFamily.value, 0, 0);
  }

  /** The logical-device request of InitVulkan: one queue on the graphics
      family, the instance layers, no device extensions, sampler anisotropy. */
  function LegacyDeviceCreateInfo(indices: QueueFamilyIndices, layers: seq<string>): (r: DeviceCreateInfo)
    requires indices.IsComplete()
    ensures r.queueFamilies == [indices.graphicsFamily.value]
    ensures |r.extensions| == 0 && SWAPCHAIN_EXTENSION !in r.extensions
    ensures r.layers == layers
    ensures r.samplerAnisotropy && !r.bufferDeviceAddress && !r.accelerationStructure && !r.rayTracingPipeline
  {
    DeviceCreateInfo([indices.graphicsFamily.value], layers, [], true, false, false, false)
  }

  /** An enumerated device together with its queue families. */
  datatype LegacyDevice = LegacyDevice(device: PhysicalDevice, families: seq<QueueFamily>)

  function Physicals(devices: seq<LegacyDevice>): (r: seq<PhysicalDevice>)
    ensures |r| == |devices| && forall i :: 0 <= i < |devices| ==> r[i] == devices[i].device
  {
    seq(|devices|, i requires 0 <= i < |devices| => devices[i].device)
  }

  /** What InitVulkan's environment answers: the build type, the extensions
      GLFW requires, what the implementation supports, whether instance or
      device creation is rejected, and the devices. */
  datatype LegacyEnvironment = LegacyEnvironment(
    debugBuild: bool,
    windowExtensions: seq<string>,
    supportedExtensions: seq<string>,
    supportedLayers: seq<string>,
    instanceRejected: bool,
    devices: seq<LegacyDevice>,
    deviceRejected: bool)

  /** The members InitVulkan sets. */
  datatype LegacyVulkan = LegacyVulkan(
    instance: Handle,
    debugMessenger: Handle,
    physicalDevice: Handle,
    indices: QueueFamilyIndices,
    deviceInfo: DeviceCreateInfo,
    device: Handle,
    graphicsQueue: QueueRef)

  function LegacyExtensions(env: LegacyEnvironment): seq<string> {
    env.windowExtensions + (if env.debugBuild then [DEBUG_UTILS_EXTENSION] else [])
  }

  function LegacyLayers(env: LegacyEnvironment): (r: seq<string>)
    ensures VALIDATION_LAYER in r <==> env.debugBuild
  {
    if env.debugBuild then [VALIDATION_LAYER] else []
  }

  /** The step after device selection: queue selection and device creation on
      the chosen device. */
  function LegacyCreateDevice(env: LegacyEnvironment, chosen: LegacyDevice, instance: Handle, messenger: Handle,
                              alloc: Allocator): (r: Outcome<(LegacyVulkan, Allocator)>)
    ensures r.Ok? <==> (exists j :: 0 <= j < |chosen.families| && chosen.families[j].graphics) && !env.deviceRejected
    ensures r.Ok? ==>
      var w := r.value.0;
      && LegacyQueueSelection(chosen.families) == Ok(w.indices)
      && w.physicalDevice == chosen.device.handle
      && w.deviceInfo == LegacyDeviceCreateInfo(w.indices, LegacyLayers(env))
      && w.graphicsQueue == QueueRef(w.indices.graphicsFamily.value, 0)
      && w.graphicsQueue.family in w.deviceInfo.queueFamilies
      && w.device.Token? && !alloc.Issued(w.device)
      && w.instance == instance && w.debugMessenger == messenger
  {
    match LegacyQueueSelection(chosen.families)
    case Fatal(reason) => Fatal(reason)
    case Ok(indices) =>
      if env.deviceRejected then Fatal("Could not create the logical device")
      else
        var info := LegacyDeviceCreateInfo(indices, LegacyLayers(env));
        var (device, a) := alloc.Fresh();
        Ok((LegacyVulkan(instance, messenger, chosen.device.handle, indices, info, device,
                         QueueRef(indices.graphicsFamily.value, 0)), a))
  }

  /** InitVulkan. The support check and instance creation are assertions; the
      messenger is created in every build type; the first device holding
      VK_KHR_swapchain is kept. When no device qualifies the physical device
      stays null and the next call, getQueueFamilyProperties, is made on the
      null handle, which ends the process. */
  function InitVulkan(env: LegacyEnvironment, alloc: Allocator): (r: Outcome<(LegacyVulkan, Allocator)>)
    ensures !LegacySupported(LegacyExtensions(env), LegacyLayers(env), env.supportedExtensions, env.supportedLayers)
            ==> r == Fatal("Extensions not supported")
    ensures r.Ok? ==>
      && LegacySupported(LegacyExtensions(env), LegacyLayers(env), env.supportedExtensions, env.supportedLayers)
      && !env.instanceRejected && !env.deviceRejected
      && var w := r.value.0;
         exists i :: FirstSwapchainDevice(env.devices, i)
           && w.physicalDevice == env.devices[i].device.handle
           && LegacyQueueSelection(env.devices[i].families) == Ok(w.indices)
    ensures r.Ok? ==> SWAPCHAIN_EXTENSION !in r.value.0.deviceInfo.extensions
                      && |r.value.0.deviceInfo.queueFamilies| == 1
    ensures (forall j :: 0 <= j < |env.devices| ==> SWAPCHAIN_EXTENSION !in env.devices[j].device.extensions)
            ==> r.Fatal?
    // The call succeeds exactly when the checks pass, both creations are
    // accepted, and the first swapchain device has a graphics family.
    ensures r.Ok? <==>
      && LegacySupported(LegacyExtensions(env), LegacyLayers(env), env.supportedExtensions, env.supportedLayers)
      && !env.instanceRejected && !env.deviceRejected
      && exists i :: FirstSwapchainDevice(env.devices, i) && HasGraphicsFamily(env.devices[i].families)
  {
    var extensions := LegacyExtensions(env);
    var layers := LegacyLayers(env);
    if !LegacySupported(extensions, layers, env.supportedExtensions, env.supportedLayers) then
      Fatal("Extensions not supported")
    else if env.instanceRejected then
      Fatal("Could not create Vulkan instance")
    else
      var (instance, a1) := alloc.Fresh();
      var (messenger, a2) := a1.Fresh();
      var physicals := Physicals(env.devices);
      assert forall d: PhysicalDevice :: IsSuitable(d, LegacyDeviceRequest) <==> LegacyIsSuitable(d);
      match FirstSuitable(physicals, LegacyDeviceRequest)
      case None =>
        assert forall i :: FirstSwapchainDevice(env.devices, i) ==> LegacyIsSuitable(physicals[i]);
        Fatal("Queue families queried on a null physical device")
      case Some(i) =>
        assert LegacyIsSuitable(physicals[i]);
        assert FirstSwapchainDevice(env.devices, i);
        FirstSwapchainDeviceIsUnique(env.devices, i);
        LegacyCreateDevice(env, env.devices[i], instance, messenger, a2)
  }

  /** Device i is the first whose extensions hold VK_KHR_swapchain. */
  predicate FirstSwapchainDevice(devices: seq<LegacyDevice>, i: int) {
    && 0 <= i < |devices|
    && SWAPCHAIN_EXTENSION in devices[i].device.extensions
    && forall j :: 0 <= j < i ==> SWAPCHAIN_EXTENSION !in devices[j].device.extensions
  }

  predicate HasGraphicsFamily(families: seq<QueueFamily>) {
    exists k :: 0 <= k < |families| && families[k].graphics
  }

  lemma FirstSwapchainDeviceIsUnique(devices: seq<LegacyDevice>, i: int)
    requires FirstSwapchainDevice(devices, i)
    ensures forall i' :: FirstSwapchainDevice(devices, i') ==> i' == i
  {
  }

  // ---------------------------------------------------------------------
  // Window data, events and the GLFW callbacks

  /** WindowsWindow::WindowData, less the event callback, which the event
      lists below stand for. */
  datatype WindowData = WindowData(title: string, width: u32, height: u32, vsync: bool)

  /** The events the callbacks dispatch. */
  datatype Event =
    | WindowResize(width: int, height: int)
    | WindowClose
    | KeyPressed(key: int, repeatCount: int)
    | KeyReleased(key: int)
    | MouseButtonPressed(button: int)
    | MouseButtonReleased(button: int)

  /** GLFW action codes. */
  const GLFW_RELEASE: int := 0
  const GLFW_PRESS: int := 1
  const GLFW_REPEAT: int := 2

  /** The size callback stores the new size (converted to uint32_t) in the
      window data, then dispatches a resize event with the values received. */
  function ResizeCallback(data: WindowData, width: int, height: int): (r: (WindowData, seq<Event>))
    ensures r.1 == [WindowResize(width, height)]
    ensures r.0.title == data.title && r.0.vsync == data.vsync
    ensures (r.0.width - width) % U32_MODULUS == 0 && (r.0.height - height) % U32_MODULUS == 0
    ensures 0 <= width < U32_MODULUS ==> r.0.width == width
    ensures 0 <= height < U32_MODULUS ==> r.0.height == height
  {
    (data.(width := WrapU32(width), height := WrapU32(height)), [WindowResize(width, height)])
  }

  /** After a resize to a representable size, the stored size and the
      dispatched event agree, and GetWidth/GetHeight report it. */
  lemma ResizeEventMatchesStoredSize(data: WindowData, width: int, height: int)
    requires 0 <= width < U32_MODULUS && 0 <= height < U32_MODULUS
    ensures var (d, events) := ResizeCallback(data, width, height);
            && |events| == 1 && events[0].WindowResize?
            && d.width == events[0].width && d.height == events[0].height
  {
  }

  /** The close callback dispatches one close event and changes nothing. */
  function CloseCallback(data: WindowData): (r: (WindowData, seq<Event>))
    ensures r.0 == data && |r.1| == 1 && r.1[0].WindowClose?
  {
    (data, [WindowClose])
  }

  /** The key callback: press and repeat dispatch a key-pressed event with
      repeat count 0 and 1, release a key-released event, and any other
      action nothing. */
  function KeyCallback(key: int, action: int): (r: seq<Event>)
    ensures |r| <= 1
    ensures |r| == 0 <==> action != GLFW_PRESS && action != GLFW_RELEASE && action != GLFW_REPEAT
    ensures |r| == 1 ==> (r[0].KeyPressed? || r[0].KeyReleased?) && r[0].key == key
    ensures |r| == 1 && r[0].KeyReleased? <==> action == GLFW_RELEASE
    ensures action == GLFW_PRESS ==> r == [KeyPressed(key, 0)]
    ensures action == GLFW_REPEAT ==> r == [KeyPressed(key, 1)]
  {
    if action == GLFW_PRESS then [KeyPressed(key, 0)]
    else if action == GLFW_RELEASE then [KeyReleased(key)]
    else if action == GLFW_REPEAT then [KeyPressed(key, 1)]
    else []
  }

  /** Reading the action back from a key event. */
  function KeyActionOf(e: Event): Option<int> {
    match e
    case KeyPressed(_, n) => if n == 0 then Some(GLFW_PRESS) else if n == 1 then Some(GLFW_REPEAT) else None
    case KeyReleased(_) => Some(GLFW_RELEASE)
    case _ => None
  }

  /** The key callback loses nothing: its event gives back both the key and
      the action it was called with. */
  lemma KeyEventsDecode(key: int, action: int)
    ensures |KeyCallback(key, action)| == 1 ==>
              KeyActionOf(KeyCallback(key, action)[0]) == Some(action) && KeyCallback(key, action)[0].key == key
    ensures |KeyCallback(key, action)| == 1 <==> action in {GLFW_PRESS, GLFW_RELEASE, GLFW_REPEAT}
  {
  }

  /** The mouse-button callback: press and release dispatch the matching
      event; repeat and any other action dispatch nothing. */
  function MouseCallback(button: int, action: int): (r: seq<Event>)
    ensures |r| <= 1
    ensures |r| == 0 <==> action != GLFW_PRESS && action != GLFW_RELEASE
    ensures |r| == 1 ==> (r[0].MouseButtonPressed? || r[0].MouseButtonReleased?) && r[0].button == button
    ensures |r| == 1 && r[0].MouseButtonPressed? <==> action == GLFW_PRESS
  {
    if action == GLFW_PRESS then [MouseButtonPressed(button)]
    else if action == GLFW_RELEASE then [MouseButtonReleased(button)]
    else []
  }

  /** The window state the vsync calls touch: the data and the swap interval
      last handed to glfwSwapInterval. */
  datatype WindowState = WindowState(data: WindowData, swapInterval: int)

  /** SetVSync: a swap interval of 1 when enabled and 0 otherwise, and the
      flag recorded in the window data. */
  function SetVSync(w: WindowState, enabled: bool): (r: WindowState)
    ensures r.data.vsync == enabled
    ensures r.swapInterval == 1 <==> enabled
    ensures r.swapInterval == 0 <==> !enabled
    ensures r.data.title == w.data.title && r.data.width == w.data.width && r.data.height == w.data.height
  {
    WindowState(w.data.(vsync := enabled), if enabled then 1 else 0)
  }

  function IsVSync(w: WindowState): bool {
    w.data.vsync
  }

  /** IsVSync reports the last SetVSync, and the swap interval agrees with it;
      a later call overrides an earlier one entirely. */
  lemma VSyncRoundTrip(w: WindowState, a: bool, b: bool)
    ensures IsVSync(SetVSync(w, a)) == a
    ensures SetVSync(SetVSync(w, a), b) == SetVSync(w, b)
    ensures (SetVSync(w, a).swapInterval == 1) == IsVSync(SetVSync(w, a))
  {
  }
}
